=== FILE: README.md ===
# E-voting back end: election, ballot, vote and incident core

A Dafny model of the logic of a Django e-voting back end. The logic lives
in model methods, serializer validation hooks and the guard clauses of
views; each is written here as a pure function over immutable records,
or as a short method where the source loops. Wall-clock time is an integer
`now`. The database tables are Dafny maps keyed by their ids:

- the vote table is keyed by (voter id, election id), which is the
  `unique_together` constraint of `Vote`;
- elections, voters, ballots and incidents are keyed by their own ids;
- a query result is a sequence, taken in the order the query yields it.

The modules follow the Django apps:

| module | file | models |
|---|---|---|
| `Wrappers` | wrappers.dfy | `Option` / `Result` |
| `Text` | text.dfy | ASCII `str.upper` / `str.lower` and character classes |
| `Sorting` | sorting.dfy | Python's stable `list.sort(key=…, reverse=True)` |
| `Accounts` | accounts.dfy | users, voters, `validate_age`, `validate_voter_id`, `phone_regex`, `UserManager`, `Voter.clean` |
| `Registration` | registration.dfy | phone normalisation, login, registration and password-change serializers |
| `AccessControl` | access.dfy | voter verification and cancellation, role gates, voter-list filter, pagination |
| `ElectionClock` | election_clock.dfy | `Election` lifecycle and the candidate table |
| `StatusRefresh` | status_refresh.dfy | the `check_election_status` command and `active_elections` |
| `VoteLedger` | ledger.dfy | `Vote`, `record_vote`, `verify_vote`, the vote table |
| `VotingSessions` | sessions.dfy | `VotingSession` and `start_voting_session` |
| `Ballots` | ballots.dfy | `Ballot`, `BallotCandidate`, `get_ballot` |
| `Tally` | tally.dfy | `get_results`, `get_live_results`, `get_vote_count`, turnout |
| `ResultViews` | result_views.dfy | election serializers and election views |
| `Casting` | casting.dfy | `CastVoteSerializer`, `CastVoteView`, vote verification, history and voting statistics |
| `Incidents` | incidents.dfy | `IncidentReport` and its workflow methods |
| `IncidentApi` | incident_api.dfy | incident serializers and incident views |

Fernet encryption of the vote payload is a symbolic cipher:
`Encrypt(key, p)` yields `Sealed(key, p)`, and `Decrypt` succeeds only on
a token sealed under the same key. The round trip is therefore a proved
lemma (`VoteLedger.DecryptEncrypt`) rather than an assumption. Text that is
not a valid token is `Raw(text)`.

A Python `dict` built by assignment in a loop (`results[name] = count`)
is an association list. Assigning an existing key overwrites the value
in place; assigning a new key appends it (`Tally.Put`).

Where the code and its documentation differ, the model follows the code:

- `CastVoteSerializer.validate_election_id` raises "not accepting votes"
  inside its own `try`, so the caller sees "Election not found."
  (`Casting.ElectionFieldErrors`).
- An omitted birth date never reaches `validate_dob`. Only an explicit
  null is refused as "required" (`Registration.DobInput`).
- Incident visibility: only a user with a voter profile is restricted to
  their own reports. Every user without one sees all reports, not only
  officials and admins (`IncidentApi.VisibleIncidents`).
- `update_incident_status` restricts a user with an INEC profile to
  incidents assigned to them, even when that user is also an admin or a
  superuser (`IncidentApi.UpdateIncidentStatus`).
- Ballot orders come from enumerating the candidates. The schema does not
  make them unique, so reading a ballot back is modelled as a stable sort
  by order (`Ballots.CandidateList`).
- `voting_stats` and `incident_stats` check only for Admin and INEC
  profiles, so a superuser without a profile is refused.
- `votes_by_election` groups votes by election title. Two elections with
  the same title are merged into one entry (`Casting.VotesByTitle`).
- `get_ballot` and `live_election_results` look at the stored status and do
  not refresh it first. Only `active_elections` and the batch command
  refresh it.
- A phone made only of spaces and hyphens matches `phone_regex` and passes
  registration validation. It normalises to the empty string, so
  `create_user` then refuses it (`Registration.Register`).
- `get_results` is keyed by candidate name. Two candidates of one election
  may share a name when their parties differ. In that case they collapse
  into one entry that holds the last one's count, so the final total can
  fall below the live total (`Tally.OneEntryPerCandidateIffNamesDistinct`,
  `Tally.FinalTotalAtMostLiveTotal`).

## Model

| member | source | states |
|---|---|---|
| Accounts.ValidateAge | authentication/models.py:12-20 | accepts exactly the birth dates whose 18th anniversary is on or before today, returns the date unchanged, and otherwise reports under-age |
| Accounts.EighteenthBirthdayIsTheBoundary | authentication/models.py:12-20 | an 18th birthday falling today is accepted; the day before it is refused, whether it lies in the same month, the previous month or the previous year |
| Accounts.ValidateVoterId | authentication/models.py:23-34 | accepted iff exactly 10 alphanumerics; empty, wrong length and non-alphanumeric are reported in that order; the result is the upper-cased input in stored form |
| Accounts.ValidateVoterIdIsIdempotent | authentication/models.py:34 | re-validating an accepted voter id returns it unchanged |
| Accounts.MatchPhoneRegex | authentication/models.py:38-41 | the scan accepts exactly the non-empty strings of digits, '+', '-' and characters Python's Unicode `\s` matches (including U+00A0 and U+3000) |
| Accounts.PhonePatternAcceptsUnicodeSpace | authentication/models.py:38-41 | a phone with a no-break space or an ideographic space passes the pattern; one with a letter does not |
| Accounts.CreateUser | authentication/models.py:55-72 | refuses a missing phone, then a missing name, and an under-age birth date; otherwise the user holds the given phone, name and birth date, is active, and takes the staff, superuser and role extras (role voter by default) |
| Accounts.CreateSuperuser | authentication/models.py:74-84 | is_staff and is_superuser default to true and role to admin; an explicit false for either flag is refused; otherwise it succeeds exactly when `create_user` does |
| Accounts.CleanVoter | authentication/models.py:144-147 | an empty voter id saves as is; a non-empty one saves iff well formed, replaced by its upper-cased form; no other field changes |
| Accounts.CleanVoterFixesStoredForm | authentication/models.py:144-147 | a voter whose id is already in stored form saves unchanged |
| Accounts.NewVoter | authentication/models.py:129-147 | a new voter is neither verified nor allowed to vote, keeps the user and card id, and stores the upper-cased voter id |
| Text.Upper | authentication/models.py:34 | same length; each ASCII lower-case letter becomes upper-case and every other character stays |
| Text.Lower | incidents/serializers.py:100 | same length; each ASCII upper-case letter becomes lower-case and every other character stays |
| Text.UpperKeepsClasses | authentication/models.py:31-34 | upper-casing keeps an alphanumeric string alphanumeric and leaves no lower-case letter |
| Text.UpperIdempotent | authentication/models.py:34 | upper-casing twice is upper-casing once |
| Text.LowerOfUpper | authentication/views.py:284-288 | lower-casing forgets an earlier upper-casing |
| Registration.RemoveChar | authentication/serializers.py:83 | `replace(c, '')` leaves no `c` and keeps every other character as often as it occurred |
| Registration.RemoveCharConcat | authentication/serializers.py:83 | removal works character by character: it distributes over concatenation and keeps a single character exactly when it differs from `c`, so the survivors stay in their original order |
| Registration.NormalisePhone | authentication/serializers.py:83 | no space or hyphen remains, every other character keeps its multiplicity, and a phone without separators is unchanged |
| Registration.NormalisePhoneConcat | authentication/serializers.py:83 | normalising distributes over concatenation and keeps a single character exactly when it is not a separator, so the remaining characters keep their order |
| Registration.NormalisePhoneIsIdempotent | authentication/serializers.py:130-138 | normalising twice is normalising once, so the second clean-up in `create` changes nothing |
| Registration.Login | authentication/serializers.py:44-63 | a missing phone or password is refused first; success means `authenticate` accepted the normalised phone and the account is active; when both fields are present and `authenticate` returns a user, the result is that user if active and the disabled-account error otherwise; an unknown pair gives its own error |
| Registration.LoginIgnoresSeparators | authentication/serializers.py:44-63 | logging in with a phone written with spaces or hyphens gives the same outcome as logging in with its normalised form |
| Registration.FieldErrorsEmpty | authentication/serializers.py:66-123 | the field validators pass exactly when the name, phone, birth date, password, confirmation, voter id and card id each meet their rule |
| Registration.Register | authentication/serializers.py:66-154 | registration succeeds iff every field rule holds, the passwords match and the normalised phone is non-empty; the user gets the normalised phone and role voter, and the voter profile holds the upper-cased, unused voter id, a blank card id stored as none, and both flags false |
| Registration.ChangePassword | authentication/serializers.py:157-181 | the change succeeds iff the current password is given and correct, the new one has at least 8 characters, matches the confirmation and differs from the current one |
| AccessControl.StoredVoterSaves | authentication/models.py:144-147 | a voter stored in a valid table saves without error whatever its flags are set to |
| AccessControl.SetEligibility | authentication/views.py:327-374 | refused without a superuser, Admin or INEC profile, or when the voter is missing; on success only that voter's two flags change, to the requested value, and the rest of its record (its voter id too, once the table keys voters by their own id) is unchanged |
| AccessControl.VerifyVoterRegistration | authentication/views.py:327-353 | for a permitted caller it succeeds exactly when the voter exists, and the voter then passes the cast eligibility guard; only its two flags become true, the rest of its record and every other voter are unchanged |
| AccessControl.CancelVoterRegistration | authentication/views.py:358-374 | for a permitted caller it succeeds exactly when the voter exists, and both flags become false; the rest of its record and every other voter are unchanged |
| AccessControl.CancelUndoesVerify | authentication/views.py:327-374 | verifying and then cancelling leaves the voter ineligible |
| AccessControl.RoleGatesRelate | authentication/views.py:232-242 | whoever may create admins may create INEC officials; an Admin who is not a superuser may create officials but not admins; a superuser without an Admin profile may not list users |
| AccessControl.ParseVerifiedFilter | authentication/views.py:282-288 | true/1/yes select verified voters and false/0/no unverified ones, ignoring case; any other value or no value applies no filter |
| AccessControl.ParseVerifiedFilterIgnoresCase | authentication/views.py:284-288 | the parsed filter does not depend on the case of the parameter |
| AccessControl.FilterVerified | authentication/views.py:285-288 | keeps exactly the voters whose verified flag equals the requested one |
| AccessControl.FilterVerifiedConcat | authentication/views.py:285-288 | the filter distributes over concatenation and keeps a single voter exactly when its flag matches, so the listing keeps table order |
| AccessControl.VoterList | authentication/views.py:275-290 | empty for a caller without a superuser, Admin or INEC profile; otherwise all voters, or the voters matching the parsed filter, each once and in table order (the filter function itself) |
| AccessControl.PageSize | authentication/views.py:260-263 | the page size is 25 by default, the requested size when it is between 1 and 200, and 200 when more is requested |
| ElectionClock.StartElection | elections/models.py:42-49 | succeeds exactly from upcoming, whatever the clock, and then the election is ongoing; otherwise nothing changes; only the status moves, forward |
| ElectionClock.EndElection | elections/models.py:51-58 | succeeds exactly from ongoing, and then the election is completed; otherwise nothing changes; only the status moves, forward |
| ElectionClock.ActiveIffAcceptingVotes | elections/models.py:60-72 | `is_active` and `can_accept_votes` agree; both window ends are inclusive; outside the window or off ongoing, no votes are accepted |
| ElectionClock.CheckAndUpdateStatus | elections/models.py:74-88 | the status changes only for upcoming inside the window (to ongoing) and ongoing past the end (to completed); no other field changes |
| ElectionClock.CheckAndUpdateStatusIsIdempotent | elections/models.py:74-88 | refreshing twice at the same instant equals refreshing once |
| ElectionClock.RefreshThenAccepting | elections/models.py:67-88 | after a refresh, an election accepts votes exactly when it was upcoming or ongoing and now lies inside its window |
| ElectionClock.SameNameMeansDifferentParty | elections/models.py:185-187 | two candidates of one election with the same name have different parties |
| ElectionClock.CandidatesOf | elections/models.py:96 | the candidate query keeps exactly that election's candidates |
| ElectionClock.CandidatesOfConcat | elections/models.py:96 | the query distributes over concatenation and keeps a single candidate exactly when it belongs to the election, so the result is in table order |
| StatusRefresh.RefreshAll | elections/management/commands/check_election_status.py:11-24 | every election is refreshed exactly once; the updated count is the number whose status changed and is at most the number checked |
| StatusRefresh.ChangedCountSnoc | elections/management/commands/check_election_status.py:14-18 | the count grows by one exactly for an election whose status changed |
| StatusRefresh.SecondRunUpdatesNothing | elections/management/commands/check_election_status.py:11-24 | a second run at the same instant updates no election |
| StatusRefresh.NoChangeCountsZero | elections/management/commands/check_election_status.py:15-18 | when no status changed the updated count is zero |
| StatusRefresh.OngoingOnly | elections/views.py:121-122 | keeps exactly the elections whose status is ongoing |
| StatusRefresh.OngoingOnlyConcat | elections/views.py:121-122 | the filter distributes over concatenation and keeps a single election exactly when it is ongoing, so the listing keeps table order |
| StatusRefresh.ActiveElections | elections/views.py:114-127 | refreshes every election at the current time, then returns the refreshed elections that are now ongoing, each once and in table order (the filter function itself) |
| VoteLedger.DecryptEncrypt | voting/models.py:26-37 | decryption under the sealing key returns the payload; another key, or text that is not a token, fails |
| VoteLedger.NewVote | voting/models.py:11-21 | a new vote carries its id, voter, election and candidate and the cast time, its payload decrypts under no key at all, and it is not verified |
| VoteLedger.NewVoteVerifiesOnlyAfterRecording | voting/models.py:11-49 | a vote fresh from the constructor fails verification under any key; after its payload is recorded under a key, it verifies under that key |
| VoteLedger.RecordVote | voting/models.py:23-30 | returns true and changes only the encrypted payload, which decrypts to the voter, election, candidate and timestamp document |
| VoteLedger.VerifyVote | voting/models.py:32-49 | returns true exactly when the payload decrypts and its three ids match the vote's; then only is_verified is set; on any failure the vote is unchanged |
| VoteLedger.VerifyVoteIsIdempotent | voting/models.py:32-49 | verifying a second time gives the same vote and the same answer |
| VoteLedger.RecordThenVerify | voting/models.py:23-45 | a recorded payload of the vote's own ids verifies; one naming another candidate does not |
| VoteLedger.TamperedVoteFailsVerification | voting/models.py:32-49 | undecryptable text or the wrong key gives false without raising and leaves the vote as it was |
| VoteLedger.Insert | voting/models.py:56 | refused exactly when the voter already has a vote in that election, whatever the candidate; otherwise exactly one row is added and the rest are kept |
| VoteLedger.SecondInsertFails | voting/models.py:56 | after one insert, a second vote of the same voter in the same election is refused |
| VotingSessions.CompleteSession | voting/models.py:81-85 | the status becomes completed and completed_at is set to now; nothing else changes |
| VotingSessions.AbandonSession | voting/models.py:87-90 | the status becomes abandoned; completed_at and every other field stay |
| VotingSessions.ActiveSessionCount | voting/serializers.py:156-158 | counts the sessions in status started or in_progress: zero iff none is, all iff every one is |
| VotingSessions.FinishingLowersActiveCount | voting/models.py:81-90 | completing or abandoning an active session lowers the active count by exactly one |
| VotingSessions.StartVotingSession | voting/views.py:164-188 | refused without a voter profile, a non-empty election id and an existing election; the new session is started, belongs to the caller and that election, and begins now |
| Sorting.Sort | elections/models.py:129 | the result is a permutation of the input, sorted by key descending |
| Sorting.SortIsStable | elections/models.py:129 | elements with equal keys keep their input order |
| Sorting.SortKeySum | elections/models.py:129 | sorting keeps the sum of the keys |
| Sorting.SortOfDescending | elections/models.py:129 | an input already in descending key order is returned as is |
| Ballots.CandidateList | voting/models.py:109-111 | the entries come back as a permutation of the stored ones, ascending by order |
| Ballots.AssembleEntries | voting/views.py:95-98 | one entry per candidate, in enumeration order, numbered 1..N |
| Ballots.NumberedEntriesListInOrder | voting/models.py:109-111 | entries numbered 1..N in sequence read back in that sequence |
| Ballots.GetBallot | voting/views.py:80-101 | refused when the election is missing or not active, even if a ballot exists; an existing ballot is returned untouched; otherwise a new ballot lists the election's candidates in name order, numbered 1..N |
| Ballots.CreatedBallotListsCandidates | voting/views.py:95-98 | a created ballot reads back in creation order, lists no candidate twice, and lists every candidate of the election |
| Tally.WindowCountAtMostVoteCount | elections/models.py:96-105 | a candidate's result count never exceeds its unbounded `get_vote_count` |
| Tally.LateVoteIsNotCounted | elections/models.py:99-103 | a vote cast after the end date leaves the result count as it is, but still adds to `get_vote_count` |
| Tally.TimelyVoteIsCounted | elections/models.py:99-103 | a vote cast by the end date adds one to its own candidate's count and nothing to the others |
| Tally.Find | elections/models.py:104 | the position of the first entry with the key, or the length when the key is absent |
| Tally.Lookup | elections/models.py:104 | a key has a value exactly when it is present |
| Tally.Put | elections/models.py:104 | `d[name] = count`: an existing key keeps its position with the new value; a new key is appended; other entries are untouched |
| Tally.PutKeepsOtherKeys | elections/models.py:104 | assigning one key leaves every other key's value unchanged |
| Tally.Assign | elections/models.py:94-105 | a dict built by assignment has distinct keys, exactly the assigned keys, and no more entries than assignments |
| Tally.AssignKeepsLastValue | elections/models.py:104 | each key holds the value of its last assignment |
| Tally.AssignLengthIffDistinct | elections/models.py:104 | the dict has one entry per assignment exactly when no key is assigned twice |
| Tally.AssignTotal | elections/serializers.py:80 | the sum of the dict's values is at most the sum of all assigned values, and equal when no key repeats |
| Tally.Assignments | elections/models.py:97-104 | one name and window-count pair per candidate, in query order |
| Tally.Results | elections/models.py:90-105 | the results have distinct keys, exactly the candidates' names, and at most one entry per candidate |
| Tally.ResultIsLastNamedCount | elections/models.py:97-104 | a name's result is the window count of the last candidate with that name |
| Tally.OneEntryPerCandidateIffNamesDistinct | elections/models.py:96-104 | there is one entry per candidate exactly when names are distinct within the election |
| Tally.Rows | elections/models.py:113-127 | one row per candidate in query order, holding its id, name, party, position and window count |
| Tally.LiveResults | elections/models.py:107-130 | one row per candidate, a permutation of the unsorted rows, sorted by vote count descending |
| Tally.LiveResultsKeepTiesInOrder | elections/models.py:113-129 | rows with equal vote counts keep their name order |
| Tally.RowsTotal | elections/models.py:113-127 | the live rows' counts sum to the sum of the per-candidate counts |
| Tally.LiveTotalIsSumOfCounts | elections/views.py:107 | the sorted live rows' vote counts sum to the sum of the per-candidate window counts |
| Tally.FinalTotalAtMostLiveTotal | elections/serializers.py:79-80 | the final total is at most the live total, and equal when candidate names are distinct |
| Tally.EligibleCount | voting/serializers.py:147 | counts the voters allowed to vote: all iff every one is, none iff none is |
| Tally.Turnout | voting/serializers.py:148 | zero when nobody is eligible; otherwise turnout times the eligible count equals 100 times the total |
| Tally.TurnoutBounds | elections/serializers.py:85 | turnout is at most 100 when votes do not outnumber eligible voters, exactly 100 iff they are equal, and above 100 otherwise |
| ResultViews.CreateGate | elections/views.py:34-40 | creation is allowed exactly for a superuser, an Admin profile or role admin; anyone else is forbidden |
| ResultViews.ElectionGateVersusVoterGate | elections/views.py:37-40 | superusers and Admins pass both gates; an INEC official who is not also an admin manages voters but not elections; role admin alone manages elections but not voters |
| ResultViews.Transition | elections/views.py:132-173 | forbidden unless an election admin; a missing election is reported; only the named election may change |
| ResultViews.StartEndpoint | elections/views.py:132-150 | succeeds exactly for an admin and an upcoming election, which becomes ongoing; an admin gets "cannot start" otherwise |
| ResultViews.EndEndpoint | elections/views.py:155-173 | succeeds exactly for an admin and an ongoing election, which becomes completed; an admin gets "cannot end" otherwise |
| ResultViews.StartThenEnd | elections/views.py:132-173 | an upcoming election cannot be ended; once started it cannot be started again, it can be ended, and once ended it cannot be ended again |
| ResultViews.CheckStatusEndpoint | elections/views.py:178-211 | forbidden exactly for non-admins; otherwise every election is refreshed and the updated count is the number changed |
| ResultViews.ResultsField | elections/serializers.py:33-36 | results are present exactly for a completed election, and are then that election's final per-candidate results |
| ResultViews.ResultsFieldMatchesEndpoint | elections/serializers.py:33-36 | for a completed election the serializer field and the results endpoint report the same results, and the endpoint's total is their sum |
| ResultViews.IsActiveField | elections/serializers.py:38-39 | the field is true exactly when the election is ongoing with now in its window, so it accepts votes |
| ResultViews.FinalResultsEndpoint | elections/views.py:73-83 | a missing election is reported; the report exists exactly for a completed election and carries its results, their total and the turnout over eligible voters |
| ResultViews.LiveResultsEndpoint | elections/views.py:88-109 | a missing election is reported; the report exists exactly for an election stored as ongoing, and its rows are the live results, sorted by votes descending; its total is the sum of the rows' counts and equals the sum of the per-candidate window counts |
| ResultViews.ResultsIgnoreStatus | elections/models.py:90-105 | the results do not depend on the election's status |
| ResultViews.LiveTotalMatchesFinalTotal | elections/views.py:107 | with distinct candidate names, the live total while ongoing equals the final total once the election is completed |
| Casting.ElectionFieldErrors | voting/serializers.py:32-40 | no error exactly when the election exists and accepts votes; every failure reads "Election not found." |
| Casting.CandidateFieldErrors | voting/serializers.py:42-47 | no error exactly when the candidate exists |
| Casting.ValidateCast | voting/serializers.py:49-77 | passes exactly when the election accepts votes, the candidate exists and belongs to it, and the voter has no vote there; an existing vote is refused whatever the candidate |
| Casting.CastVote | voting/views.py:20-75 | no voter profile, then ineligibility, are refused before validation; success holds exactly when every cast rule holds; it inserts one unverified vote with the caller, election, candidate and time, whose recorded payload verifies |
| Casting.SecondCastIsRefused | voting/views.py:20-75 | after a cast the same voter cannot cast again in that election; when the new request is otherwise valid the reason is "already voted" |
| Casting.CastIsCountedOnce | elections/models.py:96-104 | a cast adds exactly one to its candidate's result count and nothing to the others |
| Casting.VerifyVoteRequest | voting/views.py:120-159 | an unknown vote id is reported; only the vote's own voter gets a verification, which is `verify_vote` on that row; anyone else is refused and nothing changes |
| Casting.CastThenVerify | voting/views.py:54-67 | verifying a vote right after casting it returns true and marks it verified |
| Casting.VotingHistory | voting/views.py:106-115 | refused without a voter profile; otherwise exactly the caller's votes, each once, newest first as the vote model's `-timestamp` ordering demands |
| Casting.CastAppearsInHistory | voting/views.py:106-115 | a vote just cast is among the caster's own votes, the rows the history query selects |
| Casting.CastThenViewHistory | voting/views.py:106-115 | after a successful cast, the caster's history request succeeds and lists the new vote |
| Casting.VotesByTitle | voting/serializers.py:152-153 | a title appears exactly when some vote belongs to an election with that title, and its entry is the number of those votes |
| Casting.SharedTitleMergesVotes | voting/serializers.py:152-153 | when exactly two elections share a title, that title's entry is the sum of the two elections' vote counts |
| Casting.TitlesHaveVotes | voting/serializers.py:152-153 | a title that occurs among the votes has at least one vote |
| Casting.UniqueTitleCountsOwnVotes | voting/serializers.py:152-153 | when no other election shares its title, an election's entry counts exactly its own votes |
| Casting.VotingStatsEndpoint | voting/views.py:193-201 | only an Admin or INEC profile passes; the report holds all votes, the eligible count, the turnout, the active sessions and the votes by title |
| Incidents.NewIncident | incidents/models.py:37-48 | a new report is pending, unassigned, without notes, medium priority unless given, created and updated now, with the given reporter, voter and details |
| Incidents.SubmitReport | incidents/models.py:50-54 | returns true and sets pending; assignment, notes and report details are kept |
| Incidents.VerifyReport | incidents/models.py:56-60 | returns true and sets under review; assignment, notes and report details are kept |
| Incidents.AssignToOfficial | incidents/models.py:62-66 | sets the official and investigating; notes and report details are kept |
| Incidents.ResolveIncident | incidents/models.py:68-73 | sets resolved with the given notes; the assignment and report details are kept |
| Incidents.DismissIncident | incidents/models.py:75-80 | sets dismissed with the reason as notes; the assignment and report details are kept |
| Incidents.WorkflowKeepsReport | incidents/models.py:50-80 | any sequence of workflow steps keeps the report details, and the last step decides the status and update time |
| Incidents.AssignmentNeedsAssignStep | incidents/models.py:50-80 | without an assign step the assignment never changes |
| IncidentApi.LastSegment | incidents/serializers.py:100 | `split('.')[-1]`: a dot-free suffix preceded by a dot, or the whole name when it has no dot |
| IncidentApi.LastSegmentIsUnique | incidents/serializers.py:100 | any dot-free suffix that is the whole name or follows a dot is the last segment |
| IncidentApi.LowerCommutesWithLastSegment | incidents/serializers.py:100 | lower-casing first and taking the segment first give the same extension |
| IncidentApi.Classify | incidents/serializers.py:101-108 | jpg/jpeg/png/gif are photo, mp4/avi/mov video, mp3/wav/aac audio, and anything else document |
| IncidentApi.EvidenceTypeOf | incidents/serializers.py:98-108 | the type is the classification of the lower-cased text after the last dot |
| IncidentApi.EvidenceTypeIgnoresCase | incidents/serializers.py:100 | the file name's case does not change the evidence type |
| IncidentApi.EvidenceTypeReadsOnlyTheExtension | incidents/serializers.py:98-108 | only the part after the last dot decides the evidence type |
| IncidentApi.LastSegmentAfterDot | incidents/serializers.py:100 | the last segment of stem.ext is ext |
| IncidentApi.ParseStatus | incidents/serializers.py:141 | a parsed status is the one whose stored name was given |
| IncidentApi.ParseStatusName | incidents/models.py:22-28 | every status choice parses back to itself |
| IncidentApi.ValidateStatusUpdate | incidents/serializers.py:140-147 | passes exactly for a status choice, and for resolved or dismissed only with non-empty notes |
| IncidentApi.StatusCountsAddUp | incidents/serializers.py:161-168 | the per-status counts add up to the number of reports |
| IncidentApi.Stats | incidents/serializers.py:158-194 | the total is the number of reports; each grouping (by status, type and priority) lists a value exactly when it occurs, with its count; pending and resolved are the counts of those statuses |
| IncidentApi.OccurringCountsArePositive | incidents/serializers.py:164-182 | a status, type or priority has a positive count exactly when some report has it |
| IncidentApi.StatsAgree | incidents/serializers.py:161-193 | the total equals the sum of the by-status counts, and pending and resolved equal their by-status entries |
| IncidentApi.IncidentStatsEndpoint | incidents/views.py:179-187 | only an Admin or INEC profile passes, and then the report is exactly the statistics of all reports (so every property of `IncidentApi.Stats` holds for it); a superuser without a profile is refused |
| IncidentApi.FileReport | incidents/serializers.py:75-82 | the reporter is the requester; voter is set exactly when the requester has a voter profile |
| IncidentApi.FiledBy | incidents/views.py:192-196 | exactly the reports filed by the user |
| IncidentApi.FiledByConcat | incidents/views.py:192-196 | the filter distributes over concatenation and keeps a single report exactly when the user filed it, so the listing keeps table order |
| IncidentApi.VisibleIncidents | incidents/views.py:26-41 | a user with a voter profile sees exactly their own reports, each once and in table order (the filter function itself); every other user sees all of them |
| IncidentApi.OwnReportVisible | incidents/views.py:26-41 | a voter sees the report they just filed and another voter does not |
| IncidentApi.AssignIncident | incidents/views.py:46-102 | succeeds exactly for a known incident and official when the incident is unassigned, already held by that official, or the requester is an admin; the same official changes nothing; otherwise the incident goes to `assign_to_official`; a refusal names the holder |
| IncidentApi.AssignIsIdempotent | incidents/views.py:69-77 | assigning again to the same official succeeds for anyone and changes nothing |
| IncidentApi.UpdateIncidentStatus | incidents/views.py:107-151 | needs an INEC, Admin or superuser; an INEC profile may touch only its own incidents; after the update the status is the requested one, notes are overwritten only when non-empty, and nothing else in the report changes |
| IncidentApi.ClosingRecordsNotes | incidents/views.py:136-144 | a successful resolve or dismiss has non-empty notes and records them with that status |

## Left out

- Fernet, JSON and key derivation are replaced by the symbolic cipher above. Key truncation, padding and JSON syntax are not modelled.
- Casting.VotingHistory: votes cast at the same instant come in an order the model leaves open, as the query gives no tie-break.
- VoteLedger.RecordVote: always succeeds. In the source, `record_vote` raises when the configured key does not give a valid Fernet key (voting/models.py:26-29); the cast view has by then created the vote row outside any transaction (voting/views.py:54-67), so a row with an empty payload would remain. That failure path is not modelled.
- Wall-clock reads become the parameter `now`. Only the stamps the model uses are kept: a vote's timestamp, a session's start and an incident's creation and update times, each set from `now`. The other `auto_now`/`auto_now_add` stamps (an election's creation and update times, a candidate's and a ballot's creation time, the user timestamps) are not modelled.
- Concurrency is left out: the `transaction.atomic` and `select_for_update` locking in `assign_incident`, and the race between the duplicate-vote pre-check and the insert. The model is sequential, and uniqueness is a property of the map key.
- Tally.Turnout: the ratio is an exact `real`; `round(…, 2)` and floating point are not modelled.
- Password hashing, `check_password`, `authenticate`, tokens, login, logout and the authentication backend are foreign. `authenticate` is a function parameter and the result of `check_password` is a flag.
- ORM querysets, HTTP status codes, response shapes and serializer field rendering are reduced to success or error-kind results. `__str__`, `view_profile`, the name and title serializer fields and `ElectionCreateSerializer` are not modelled.
- All `admin.py` and `urls.py` files are configuration and routing only.
- Evidence file uploads, the `request.FILES` fallback and the file size are not modelled. The evidence type of a file name is.
- Output side effects are not modelled: the debug printing in the registration view, the command's stdout messages, and the stdout capture and exception path of the `check_election_status` view.
- Text.Upper, Text.Lower: ASCII only; Python's Unicode `upper`, `lower` and `isalnum` are not modelled.
- Field-level details that DRF applies before validation (whitespace trimming, UUID syntax of id fields, `max_length` of char fields other than those listed) are not modelled.
- The password-reset serializers and views, `IncidentResponse`, `add_incident_response`, `VoterDetailView`, `voter_history`, `voter_list` and the profile, register and login views are outside this core.
- The model methods `Voter.register`, `Voter.cast_vote`, `Voter.report_incident`, `Admin.promote` and `demote`, and the `InecOfficial` helpers are not used by the views of this core.
- ElectionClock.CandidatesOf: the candidate table is supplied already in name order (the `ordering = ['name']` Meta option); the model does not sort it.
- AccessControl.VerifyVoterRegistration: the view reports every exception, a failed save included, as "Voter not found", and the model does the same. `cancel_voter_registration` reports a failed save separately. For a table in stored form the model shows that neither save can fail.
- VotingSessions.StartVotingSession: the in_progress and error statuses exist, but no code path of this core sets them.
- Registration.Login: only the outcome of `authenticate` is modelled; the backend's own lookup is foreign.

=== FILE: access.dfy ===
/** Role gates and voter-management actions of authentication/views.py.
    Voters are stored by their voter id, the lookup key of these views. */
module AccessControl {
  import opened Wrappers
  import opened Text
  import opened Accounts

  type VoterTable = map<string, Voter>

  datatype AdminError = Forbidden | VoterNotFound | SaveFailed

  /** Every stored voter has a stored-form id under its own key. */
  ghost predicate TableInvariant(voters: VoterTable) {
    forall k :: k in voters ==> voters[k].voterId == k && StoredVoterId(k)
  }

  /** A voter of a table in stored form saves without error whatever its
      flags are set to. */
  lemma StoredVoterSaves(voters: VoterTable, voterId: string, on: bool)
    ensures TableInvariant(voters) && voterId in voters ==>
              CleanVoter(voters[voterId].(registrationVerified := on, canVote := on))
              == Ok(voters[voterId].(registrationVerified := on, canVote := on))
  {
    if TableInvariant(voters) && voterId in voters {
      CleanVoterFixesStoredForm(voters[voterId].(registrationVerified := on, canVote := on));
    }
  }

  /** Sets both eligibility flags of one voter, then saves it (which runs
      `Voter.clean`). `on` is true for verification, false for
      cancellation; `saveError` is the error the view reports when the save
      fails. */
  function SetEligibility(p: Principal, voters: VoterTable, voterId: string, on: bool, saveError: AdminError): (r: Result<VoterTable, AdminError>)
    ensures !CanManageVoters(p) ==> r == Err(Forbidden)
    ensures CanManageVoters(p) && voterId !in voters ==> r == Err(VoterNotFound)
    ensures r.Ok? ==> voterId in voters && r.value.Keys == voters.Keys
    ensures r.Ok? ==> r.value[voterId].registrationVerified == on && r.value[voterId].canVote == on
    ensures r.Ok? ==> forall k :: k in voters && k != voterId ==> r.value[k] == voters[k]
    ensures r.Ok? ==> voterId in voters
                      && r.value[voterId] == voters[voterId].(registrationVerified := on, canVote := on, voterId := r.value[voterId].voterId)
    ensures TableInvariant(voters) && r.Ok? ==> r.value[voterId] == voters[voterId].(registrationVerified := on, canVote := on)
  {
    if !CanManageVoters(p) then Err(Forbidden)
    else if voterId !in voters then Err(VoterNotFound)
    else
      match CleanVoter(voters[voterId].(registrationVerified := on, canVote := on))
      case Err(_) => Err(saveError)
      case Ok(v) => Ok(voters[voterId := v])
  }

  /** `verify_voter_registration`: a superuser, Admin or INEC official sets
      both flags of the named voter; a failed save is reported as "not
      found" because the view catches every exception. */
  function VerifyVoterRegistration(p: Principal, voters: VoterTable, voterId: string): (r: Result<VoterTable, AdminError>)
    ensures !CanManageVoters(p) ==> r == Err(Forbidden)
    ensures r.Ok? ==> voterId in voters && r.value.Keys == voters.Keys && Eligible(r.value[voterId])
    ensures r.Ok? ==> forall k :: k in voters && k != voterId ==> r.value[k] == voters[k]
    ensures r.Err? ==> r.error != SaveFailed
    ensures CanManageVoters(p) && TableInvariant(voters) ==> (r.Ok? <==> voterId in voters)
    ensures TableInvariant(voters) && r.Ok? ==> TableInvariant(r.value)
    ensures r.Ok? ==> voterId in voters
                      && r.value[voterId] == voters[voterId].(registrationVerified := true, canVote := true, voterId := r.value[voterId].voterId)
    ensures TableInvariant(voters) && r.Ok? ==> r.value[voterId] == voters[voterId].(registrationVerified := true, canVote := true)
  {
    StoredVoterSaves(voters, voterId, true);
    SetEligibility(p, voters, voterId, true, VoterNotFound)
  }

  /** `cancel_voter_registration`: same gate, clears both flags. */
  function CancelVoterRegistration(p: Principal, voters: VoterTable, voterId: string): (r: Result<VoterTable, AdminError>)
    ensures !CanManageVoters(p) ==> r == Err(Forbidden)
    ensures r.Ok? ==> voterId in voters && r.value.Keys == voters.Keys
                      && !r.value[voterId].registrationVerified && !r.value[voterId].canVote
    ensures r.Ok? ==> forall k :: k in voters && k != voterId ==> r.value[k] == voters[k]
    ensures CanManageVoters(p) && TableInvariant(voters) ==> (r.Ok? <==> voterId in voters)
    ensures TableInvariant(voters) && r.Ok? ==> TableInvariant(r.value)
    ensures r.Ok? ==> voterId in voters
                      && r.value[voterId] == voters[voterId].(registrationVerified := false, canVote := false, voterId := r.value[voterId].voterId)
    ensures TableInvariant(voters) && r.Ok? ==> r.value[voterId] == voters[voterId].(registrationVerified := false, canVote := false)
  {
    StoredVoterSaves(voters, voterId, false);
    SetEligibility(p, voters, voterId, false, SaveFailed)
  }

  /** Verification followed by cancellation leaves the voter ineligible
      again, whatever its flags were before. */
  lemma CancelUndoesVerify(p: Principal, voters: VoterTable, voterId: string)
    requires CanManageVoters(p) && TableInvariant(voters) && voterId in voters
    ensures VerifyVoterRegistration(p, voters, voterId).Ok?
    ensures var v := VerifyVoterRegistration(p, voters, voterId).value;
            CancelVoterRegistration(p, v, voterId).Ok?
            && !Eligible(CancelVoterRegistration(p, v, voterId).value[voterId])
  {
  }

  // ---------------------------------------------------------------- role gates

  /** `create_admin` is for superusers only. */
  predicate MayCreateAdmin(p: Principal) {
    p.isSuperuser
  }

  /** `create_inec_official` is for superusers or Admins. */
  predicate MayCreateInecOfficial(p: Principal) {
    p.isSuperuser || p.hasAdmin
  }

  /** `user_list` requires an Admin profile. */
  predicate MayListUsers(p: Principal) {
    p.hasAdmin
  }

  /** How the gates relate: whoever may create admins may create INEC
      officials; an Admin profile without superuser status may create INEC
      officials but not admins; a superuser without an Admin profile may not
      list users. */
  lemma RoleGatesRelate(p: Principal)
    ensures MayCreateAdmin(p) ==> MayCreateInecOfficial(p)
    ensures p.hasAdmin && !p.isSuperuser ==> MayCreateInecOfficial(p) && !MayCreateAdmin(p)
    ensures p.isSuperuser && !p.hasAdmin ==> !MayListUsers(p)
    ensures MayCreateInecOfficial(p) ==> CanManageVoters(p)
  {
  }

  // ---------------------------------------------------------------- voter list

  /** The `registration_verified` query parameter, compared after
      `.lower()`: a true-word, a false-word, or anything else (no filter). */
  function ParseVerifiedFilter(param: Option<string>): (r: Option<bool>)
    ensures param.None? ==> r.None?
    ensures r == Some(true) <==> param.Some? && Lower(param.value) in {"true", "1", "yes"}
    ensures r == Some(false) <==> param.Some? && Lower(param.value) in {"false", "0", "no"}
  {
    match param
    case None => None
    case Some(s) =>
      var l := Lower(s);
      if l == "true" || l == "1" || l == "yes" then Some(true)
      else if l == "false" || l == "0" || l == "no" then Some(false)
      else None
  }

  /** The filter does not depend on the letter case of the parameter. */
  lemma ParseVerifiedFilterIgnoresCase(s: string)
    ensures ParseVerifiedFilter(Some(Upper(s))) == ParseVerifiedFilter(Some(s))
  {
    LowerOfUpper(s);
  }

  function FilterVerified(voters: seq<Voter>, flag: bool): (r: seq<Voter>)
    ensures forall v :: v in r <==> v in voters && v.registrationVerified == flag
    ensures |r| <= |voters|
  {
    if |voters| == 0 then []
    else (if voters[0].registrationVerified == flag then [voters[0]] else []) + FilterVerified(voters[1..], flag)
  }

  /** The filter keeps the queryset's order. */
  lemma {:induction false} FilterVerifiedConcat(a: seq<Voter>, b: seq<Voter>, v: Voter, flag: bool)
    ensures FilterVerified(a + b, flag) == FilterVerified(a, flag) + FilterVerified(b, flag)
    ensures FilterVerified([v], flag) == if v.registrationVerified == flag then [v] else []
  {
    if |a| == 0 {
      assert a + b == b;
    } else {
      assert (a + b)[1..] == a[1..] + b;
      FilterVerifiedConcat(a[1..], b, v, flag);
    }
  }

  /** `VoterListView.get_queryset`: nothing for an unprivileged requester;
      otherwise every voter, narrowed by the parsed filter when it parses. */
  function VoterList(p: Principal, voters: seq<Voter>, param: Option<string>): (r: seq<Voter>)
    ensures !CanManageVoters(p) ==> r == []
    ensures CanManageVoters(p) && ParseVerifiedFilter(param).None? ==> r == voters
    ensures CanManageVoters(p) && ParseVerifiedFilter(param).Some? ==>
              forall v :: v in r <==> v in voters && v.registrationVerified == ParseVerifiedFilter(param).value
    ensures CanManageVoters(p) && ParseVerifiedFilter(param).Some? ==> r == FilterVerified(voters, ParseVerifiedFilter(param).value)
  {
    if !CanManageVoters(p) then []
    else
      match ParseVerifiedFilter(param)
      case None => voters
      case Some(flag) => FilterVerified(voters, flag)
  }

  // ---------------------------------------------------------------- pagination

  const DefaultPageSize: int := 25
  const MaxPageSize: int := 200

  /** Page size of `StandardResultsSetPagination`: a positive requested size
      capped at 200; a missing, unparsable or non-positive one gives 25. */
  function PageSize(requested: Option<int>): (r: int)
    ensures 1 <= r <= MaxPageSize
    ensures requested.Some? && 1 <= requested.value <= MaxPageSize ==> r == requested.value
    ensures requested.Some? && requested.value > MaxPageSize ==> r == MaxPageSize
    ensures requested.None? || requested.value <= 0 ==> r == DefaultPageSize
  {
    match requested
    case Some(n) => if n <= 0 then DefaultPageSize else if n > MaxPageSize then MaxPageSize else n
    case None => DefaultPageSize
  }
}

=== FILE: accounts.dfy ===
/** Accounts: the user, voter and profile records of authentication/models.py,
    the age and voter-id validators, the phone pattern, and the user manager's
    checks. Today's date is a parameter instead of a clock read. */
module Accounts {
  import opened Wrappers
  import opened Text

  datatype Role = VoterRole | AdminRole | InecOfficialRole | ObserverRole

  datatype Date = Date(year: int, month: int, day: int)

  datatype AccountError =
    | PhoneRequired
    | NameRequired
    | Underage
    | StaffFlagRequired
    | SuperuserFlagRequired

  // ---------------------------------------------------------------- age

  const MinimumAge: int := 18

  /** Python's tuple comparison `(m1, d1) < (m2, d2)`. */
  predicate MonthDayBefore(m1: int, d1: int, m2: int, d2: int) {
    m1 < m2 || (m1 == m2 && d1 < d2)
  }

  /** Whole years from `birth` to `today`: the year difference, minus one
      while this year's birthday is still ahead. */
  function AgeOn(birth: Date, today: Date): int {
    today.year - birth.year
      - (if MonthDayBefore(today.month, today.day, birth.month, birth.day) then 1 else 0)
  }

  /** Calendar reading of "old enough": the `years`-th anniversary of the
      birth date falls on or before today. */
  ghost predicate AnniversaryReached(birth: Date, today: Date, years: int) {
    var y := birth.year + years;
    y < today.year || (y == today.year && !MonthDayBefore(today.month, today.day, birth.month, birth.day))
  }

  /** `validate_age`: accepts exactly the birth dates whose 18th
      anniversary has come, and returns the date unchanged. */
  function ValidateAge(birth: Date, today: Date): (r: Result<Date, AccountError>)
    ensures r.Ok? <==> AnniversaryReached(birth, today, MinimumAge)
    ensures r.Ok? ==> r.value == birth
    ensures r.Err? ==> r.error == Underage
  {
    if AgeOn(birth, today) < MinimumAge then Err(Underage) else Ok(birth)
  }

  /** An 18th birthday falling today is accepted; the day before it is not,
      whether that day is earlier in the same month, any day of the
      previous month, or the last day of the previous year. */
  lemma EighteenthBirthdayIsTheBoundary(y: int, m: int, d: int, lastDay: int)
    ensures ValidateAge(Date(y, m, d), Date(y + MinimumAge, m, d)).Ok?
    ensures 1 < d ==> ValidateAge(Date(y, m, d), Date(y + MinimumAge, m, d - 1)).Err?
    ensures 1 < m ==> ValidateAge(Date(y, m, d), Date(y + MinimumAge, m - 1, lastDay)).Err?
    ensures ValidateAge(Date(y, m, d), Date(y + MinimumAge - 1, 12, 31)).Err?
  {
  }

  // ---------------------------------------------------------------- voter id

  const VoterIdLength: int := 10

  datatype VoterIdError = VoterIdRequired | VoterIdWrongLength | VoterIdNotAlphanumeric

  /** Ten ASCII letters or digits. */
  predicate WellFormedVoterId(s: string) {
    |s| == VoterIdLength && AllAlnum(s)
  }

  /** The form in which a voter id is stored: empty (the model skips
      validation of an empty id) or well formed without lower-case letters. */
  predicate StoredVoterId(s: string) {
    |s| == 0 || (WellFormedVoterId(s) && forall i :: 0 <= i < |s| ==> !IsLowerLetter(s[i]))
  }

  /** `validate_voter_id`: the three checks in source order, then the id
      upper-cased. */
  function ValidateVoterId(s: string): (r: Result<string, VoterIdError>)
    ensures r.Ok? <==> WellFormedVoterId(s)
    ensures r.Ok? ==> r.value == Upper(s) && |r.value| > 0 && StoredVoterId(r.value)
    ensures |s| == 0 ==> r == Err(VoterIdRequired)
    ensures 0 < |s| != VoterIdLength ==> r == Err(VoterIdWrongLength)
    ensures |s| == VoterIdLength && !AllAlnum(s) ==> r == Err(VoterIdNotAlphanumeric)
  {
    if |s| == 0 then Err(VoterIdRequired)
    else if |s| != VoterIdLength then Err(VoterIdWrongLength)
    else if !AllAlnum(s) then Err(VoterIdNotAlphanumeric)
    else
      UpperKeepsClasses(s);
      Ok(Upper(s))
  }

  /** Re-validating an accepted id returns it unchanged. */
  lemma ValidateVoterIdIsIdempotent(s: string)
    requires ValidateVoterId(s).Ok?
    ensures ValidateVoterId(ValidateVoterId(s).value) == ValidateVoterId(s)
  {
    UpperIdempotent(s);
  }

  // ---------------------------------------------------------------- phone

  /** `\s` of a Python `str` pattern: the characters `str.isspace` accepts.
      In ASCII these are tab, newline, vertical tab, form feed, carriage
      return, the four separators 0x1c-0x1f and space; beyond it, next line,
      no-break space, the Ogham space mark, the spaces 0x2000-0x200a, the
      line and paragraph separators, the narrow no-break space, the medium
      mathematical space and the ideographic space. */
  predicate IsRegexSpace(c: char) {
    var n := c as int;
    9 <= n <= 13 || 28 <= n <= 32
    || n == 0x85 || n == 0xa0 || n == 0x1680 || 0x2000 <= n <= 0x200a
    || n == 0x2028 || n == 0x2029 || n == 0x202f || n == 0x205f || n == 0x3000
  }

  /** A member of the character class `[0-9+\-\s]`. */
  predicate IsPhoneChar(c: char) {
    IsDigit(c) || c == '+' || c == '-' || IsRegexSpace(c)
  }

  /** The language of `^[0-9+\-\s]+$`. */
  predicate PhonePattern(s: string) {
    |s| > 0 && forall i :: 0 <= i < |s| ==> IsPhoneChar(s[i])
  }

  /** `phone_regex`: scans the input once, left to right, failing at the
      first character outside the class; the empty input does not match
      because the class is repeated with `+`. */
  method MatchPhoneRegex(s: string) returns (matched: bool)
    ensures matched <==> PhonePattern(s)
  {
    if |s| == 0 {
      return false;
    }
    var i := 0;
    while i < |s|
      invariant 0 <= i <= |s|
      invariant forall j :: 0 <= j < i ==> IsPhoneChar(s[j])
    {
      if !IsPhoneChar(s[i]) {
        return false;
      }
      i := i + 1;
    }
    return true;
  }

  /** Non-ASCII whitespace is part of the class: a phone written with a
      no-break space matches, while a letter still does not. */
  lemma PhonePatternAcceptsUnicodeSpace()
    ensures PhonePattern("080\U{00A0}1234")
    ensures PhonePattern("080\U{3000}1234")
    ensures !PhonePattern("080a1234")
  {
    assert !IsPhoneChar("080a1234"[3]);
  }

  // ---------------------------------------------------------------- users

  datatype User = User(
    phone: string,
    name: string,
    isStaff: bool,
    isSuperuser: bool,
    role: Role,
    dob: Option<Date>,
    isActive: bool)

  /** The keyword arguments `create_user` and `create_superuser` look at;
      `None` is an argument that was not passed. */
  datatype ExtraFields = ExtraFields(
    isStaff: Option<bool>,
    isSuperuser: Option<bool>,
    role: Option<Role>,
    dob: Option<Date>)

  /** `UserManager.create_user`: phone and name are required, a given birth
      date must pass the age check, unspecified flags take the model's
      defaults (not staff, not superuser, role voter, active). */
  function CreateUser(phone: string, name: string, extra: ExtraFields, today: Date): (r: Result<User, AccountError>)
    ensures r.Ok? <==> |phone| > 0 && |name| > 0
                       && (extra.dob.None? || AnniversaryReached(extra.dob.value, today, MinimumAge))
    ensures |phone| == 0 ==> r == Err(PhoneRequired)
    ensures |phone| > 0 && |name| == 0 ==> r == Err(NameRequired)
    ensures r.Ok? ==> r.value.phone == phone && r.value.name == name && r.value.dob == extra.dob
    ensures r.Ok? ==> r.value.isActive
    ensures r.Ok? ==> (r.value.isStaff <==> extra.isStaff == Some(true))
    ensures r.Ok? ==> (r.value.isSuperuser <==> extra.isSuperuser == Some(true))
    ensures r.Ok? ==> r.value.role == (if extra.role.Some? then extra.role.value else VoterRole)
  {
    if |phone| == 0 then Err(PhoneRequired)
    else if |name| == 0 then Err(NameRequired)
    else if extra.dob.Some? && ValidateAge(extra.dob.value, today).Err? then Err(Underage)
    else Ok(User(phone, name, extra.isStaff.GetOr(false), extra.isSuperuser.GetOr(false),
                 extra.role.GetOr(VoterRole), extra.dob, true))
  }

  /** `UserManager.create_superuser`: both flags and the admin role default
      on, and an explicit `False` for either flag is refused. */
  function CreateSuperuser(phone: string, name: string, extra: ExtraFields, today: Date): (r: Result<User, AccountError>)
    ensures r.Ok? ==> r.value.isStaff && r.value.isSuperuser
    ensures extra.isStaff == Some(false) ==> r == Err(StaffFlagRequired)
    ensures extra.isStaff != Some(false) && extra.isSuperuser == Some(false) ==> r == Err(SuperuserFlagRequired)
    ensures extra.isStaff != Some(false) && extra.isSuperuser != Some(false) ==>
              (r.Ok? <==> CreateUser(phone, name, extra, today).Ok?)
    ensures r.Ok? && extra.role.None? ==> r.value.role == AdminRole
  {
    var staff := extra.isStaff.GetOr(true);
    var superuser := extra.isSuperuser.GetOr(true);
    if !staff then Err(StaffFlagRequired)
    else if !superuser then Err(SuperuserFlagRequired)
    else CreateUser(phone, name, ExtraFields(Some(true), Some(true), Some(extra.role.GetOr(AdminRole)), extra.dob), today)
  }

  // ---------------------------------------------------------------- voters

  datatype Voter = Voter(
    userId: string,
    voterId: string,
    cardId: Option<string>,
    registrationVerified: bool,
    canVote: bool)

  /** The cast guard of the voting view: both flags must be set. */
  predicate Eligible(v: Voter) {
    v.canVote && v.registrationVerified
  }

  /** `Voter.clean`, run by every save: a non-empty voter id is replaced by
      its validated, upper-cased form; nothing else changes. */
  function CleanVoter(v: Voter): (r: Result<Voter, VoterIdError>)
    ensures |v.voterId| == 0 ==> r == Ok(v)
    ensures |v.voterId| > 0 ==> (r.Ok? <==> WellFormedVoterId(v.voterId))
    ensures r.Ok? ==> r.value == v.(voterId := r.value.voterId) && StoredVoterId(r.value.voterId)
    ensures r.Ok? && |v.voterId| > 0 ==> r.value.voterId == Upper(v.voterId)
  {
    if |v.voterId| == 0 then Ok(v)
    else
      var id :- ValidateVoterId(v.voterId);
      Ok(v.(voterId := id))
  }

  /** A voter already in stored form passes `clean` unchanged, so saving it
      again cannot fail. */
  lemma {:induction false} CleanVoterFixesStoredForm(v: Voter)
    requires StoredVoterId(v.voterId)
    ensures CleanVoter(v) == Ok(v)
  {
    if |v.voterId| > 0 {
      assert Upper(v.voterId) == v.voterId;
    }
  }

  /** Creating a voter profile: both flags start false and the voter id is
      stored in cleaned form. */
  function NewVoter(userId: string, voterId: string, cardId: Option<string>): (r: Result<Voter, VoterIdError>)
    ensures r.Ok? ==> !r.value.registrationVerified && !r.value.canVote && !Eligible(r.value)
    ensures r.Ok? ==> r.value.userId == userId && r.value.cardId == cardId
    ensures r.Ok? ==> StoredVoterId(r.value.voterId)
    ensures r.Ok? <==> (|voterId| == 0 || WellFormedVoterId(voterId))
    ensures r.Ok? && |voterId| > 0 ==> r.value.voterId == Upper(voterId)
  {
    CleanVoter(Voter(userId, voterId, cardId, false, false))
  }

  // ---------------------------------------------------------------- requesters

  /** The authenticated requester as the views see it: account flags and
      which profiles (`hasattr(user, 'voter' | 'admin' | 'inecofficial')`)
      are attached. */
  datatype Principal = Principal(
    userId: string,
    isSuperuser: bool,
    role: Role,
    voter: Option<Voter>,
    hasAdmin: bool,
    hasInec: bool)

  /** Superuser, Admin profile or INEC profile: the gate of the voter
      management views. */
  predicate CanManageVoters(p: Principal) {
    p.isSuperuser || p.hasAdmin || p.hasInec
  }
}

=== FILE: ballots.dfy ===
/** Ballots of voting/models.py and the `get_ballot` view of voting/views.py:
    an election's ballot lists its candidates with an order of appearance,
    and is assembled lazily the first time an active election's ballot is
    asked for. */
module Ballots {
  import opened Wrappers
  import opened ElectionClock
  import Sorting

  datatype BallotEntry = BallotEntry(candidateId: string, order: int)

  datatype Ballot = Ballot(ballotId: string, electionId: string, entries: seq<BallotEntry>)

  /** Ballots by election: the one-to-one link from election to ballot. */
  type BallotTable = map<string, Ballot>

  ghost predicate BallotTableValid(ballots: BallotTable) {
    forall k :: k in ballots ==> ballots[k].electionId == k
  }

  function NegatedOrder(e: BallotEntry): int {
    -e.order
  }

  /** `get_candidate_list`: the entries by ascending order of appearance;
      entries that share an order keep their stored order. */
  function CandidateList(b: Ballot): (r: seq<BallotEntry>)
    ensures |r| == |b.entries|
    ensures multiset(r) == multiset(b.entries)
    ensures forall i, j :: 0 <= i < j < |r| ==> r[i].order <= r[j].order
  {
    var r := Sorting.Sort(b.entries, NegatedOrder);
    assert forall i, j :: 0 <= i < j < |r| ==> NegatedOrder(r[i]) >= NegatedOrder(r[j]);
    r
  }

  /** Each candidate is on the ballot at most once (`unique_together` of
      ballot and candidate). */
  ghost predicate NoRepeatedCandidate(entries: seq<BallotEntry>) {
    forall i, j :: 0 <= i < j < |entries| ==> entries[i].candidateId != entries[j].candidateId
  }

  /** The loop of `get_ballot` that numbers the election's candidates 1, 2,
      ... in the order the query yields them. */
  method AssembleEntries(cands: seq<Candidate>) returns (entries: seq<BallotEntry>)
    ensures |entries| == |cands|
    ensures forall i :: 0 <= i < |entries| ==> entries[i].candidateId == cands[i].candidateId
    ensures forall i :: 0 <= i < |entries| ==> entries[i].order == i + 1
  {
    entries := [];
    var i := 0;
    while i < |cands|
      invariant 0 <= i <= |cands|
      invariant |entries| == i
      invariant forall k :: 0 <= k < i ==> entries[k] == BallotEntry(cands[k].candidateId, k + 1)
    {
      entries := entries + [BallotEntry(cands[i].candidateId, i + 1)];
      i := i + 1;
    }
  }

  /** A freshly numbered ballot is already in order: listing it gives back
      the candidates in the order they were added. */
  lemma NumberedEntriesListInOrder(b: Ballot)
    requires forall i :: 0 <= i < |b.entries| ==> b.entries[i].order == i + 1
    ensures CandidateList(b) == b.entries
  {
    Sorting.SortOfDescending(b.entries, NegatedOrder);
  }

  datatype BallotError = ElectionNotFound | ElectionNotActive

  /** `get_ballot`: an unknown election is not found; an election that is
      not active (by the stored status and the clock, without a refresh)
      is refused even when its ballot exists; an existing ballot is returned
      as stored; otherwise a new ballot numbering the election's candidates
      is created and stored. */
  method GetBallot(
    elections: map<string, Election>, ballots: BallotTable, candidates: seq<Candidate>,
    electionId: string, newBallotId: string, now: int)
    returns (r: Result<(Ballot, BallotTable), BallotError>)
    ensures electionId !in elections ==> r == Err(ElectionNotFound)
    ensures r.Ok? <==> electionId in elections && IsActive(elections[electionId], now)
    ensures r.Ok? && electionId in ballots ==> r.value == (ballots[electionId], ballots)
    ensures r.Ok? && electionId !in ballots ==>
              var b := r.value.0;
              var cs := CandidatesOf(candidates, electionId);
              && r.value.1 == ballots[electionId := b]
              && b.ballotId == newBallotId && b.electionId == electionId
              && |b.entries| == |cs|
              && (forall i :: 0 <= i < |cs| ==> b.entries[i] == BallotEntry(cs[i].candidateId, i + 1))
    ensures r.Ok? && BallotTableValid(ballots) ==> BallotTableValid(r.value.1) && r.value.0.electionId == electionId
  {
    if electionId !in elections {
      return Err(ElectionNotFound);
    }
    if !IsActive(elections[electionId], now) {
      return Err(ElectionNotActive);
    }
    if electionId in ballots {
      return Ok((ballots[electionId], ballots));
    }
    var entries := AssembleEntries(CandidatesOf(candidates, electionId));
    var b := Ballot(newBallotId, electionId, entries);
    r := Ok((b, ballots[electionId := b]));
  }

  /** A ballot created by `get_ballot` from a valid candidate table lists
      exactly that election's candidates, each once, in query order. */
  lemma CreatedBallotListsCandidates(cands: seq<Candidate>, electionId: string, b: Ballot)
    requires CandidateTableValid(cands)
    requires var cs := CandidatesOf(cands, electionId);
             |b.entries| == |cs|
             && forall i :: 0 <= i < |cs| ==> b.entries[i] == BallotEntry(cs[i].candidateId, i + 1)
    ensures CandidateList(b) == b.entries
    ensures NoRepeatedCandidate(CandidateList(b))
    ensures forall c :: c in cands && c.electionId == electionId ==>
              exists i :: 0 <= i < |b.entries| && b.entries[i].candidateId == c.candidateId
  {
    var cs := CandidatesOf(cands, electionId);
    NumberedEntriesListInOrder(b);
    forall c | c in cands && c.electionId == electionId
      ensures exists i :: 0 <= i < |b.entries| && b.entries[i].candidateId == c.candidateId
    {
      var i :| 0 <= i < |cs| && cs[i] == c;
      assert b.entries[i].candidateId == c.candidateId;
    }
  }
}

=== FILE: casting.dfy ===
/** Casting and checking votes: `CastVoteSerializer` of
    voting/serializers.py and the cast, verify, history and statistics
    views of voting/views.py. */
module Casting {
  import opened Wrappers
  import opened Accounts
  import opened ElectionClock
  import opened VoteLedger
  import opened Tally
  import VotingSessions
  import Sorting

  datatype CastRequest = CastRequest(electionId: string, candidateId: string)

  /** What the serializer reports: per-field errors, or one object-level
      error from `validate`. */
  datatype CastFieldError =
    | ElectionNotFound
    | CandidateNotFound
    | CandidateNotInElection
    | AlreadyVoted

  datatype CastFailure =
    | NotAVoter
    | NotEligible
    | Invalid(errors: seq<CastFieldError>)

  /** `validate_election_id`: a missing election and one that is not
      accepting votes both surface as "Election not found.", because the
      inner error is raised inside the `try` and caught by the broad
      `except`. The status is read as stored, without a refresh. */
  function ElectionFieldErrors(elections: map<string, Election>, electionId: string, now: int): (r: seq<CastFieldError>)
    ensures r == [] <==> electionId in elections && CanAcceptVotes(elections[electionId], now)
    ensures r != [] ==> r == [ElectionNotFound]
  {
    if electionId in elections && CanAcceptVotes(elections[electionId], now) then [] else [ElectionNotFound]
  }

  /** `validate_candidate_id`: the candidate must exist in any election. */
  function CandidateFieldErrors(candidates: map<string, Candidate>, candidateId: string): (r: seq<CastFieldError>)
    ensures r == [] <==> candidateId in candidates
    ensures r != [] ==> r == [CandidateNotFound]
  {
    if candidateId in candidates then [] else [CandidateNotFound]
  }

  /** The serializer as a whole: field validators first, both reported;
      `validate` only when both passed, checking membership of the
      candidate in the election, then the one-vote rule. */
  function ValidateCast(
    voter: Voter, req: CastRequest, elections: map<string, Election>,
    candidates: map<string, Candidate>, store: VoteStore, now: int): (r: seq<CastFieldError>)
    ensures r == [] <==>
              && req.electionId in elections && CanAcceptVotes(elections[req.electionId], now)
              && req.candidateId in candidates && candidates[req.candidateId].electionId == req.electionId
              && (voter.voterId, req.electionId) !in store
    ensures (voter.voterId, req.electionId) in store && req.candidateId in candidates
            && req.electionId in elections && CanAcceptVotes(elections[req.electionId], now)
            && candidates[req.candidateId].electionId == req.electionId
            ==> r == [AlreadyVoted]
  {
    var fieldErrors := ElectionFieldErrors(elections, req.electionId, now) + CandidateFieldErrors(candidates, req.candidateId);
    if fieldErrors != [] then fieldErrors
    else if candidates[req.candidateId].electionId != req.electionId then [CandidateNotInElection]
    else if (voter.voterId, req.electionId) in store then [AlreadyVoted]
    else []
  }

  /** Everything the cast view checks before writing. */
  ghost predicate MayCast(
    p: Principal, req: CastRequest, elections: map<string, Election>,
    candidates: map<string, Candidate>, store: VoteStore, now: int)
  {
    && p.voter.Some? && Eligible(p.voter.value)
    && req.electionId in elections && CanAcceptVotes(elections[req.electionId], now)
    && req.candidateId in candidates && candidates[req.candidateId].electionId == req.electionId
    && (p.voter.value.voterId, req.electionId) !in store
  }

  /** `CastVoteView.post`: voter and eligibility checks, the serializer,
      then one new row whose payload is the voter's, election's and
      candidate's ids with the cast time, encrypted under `key`. */
  function CastVote(
    p: Principal, req: CastRequest, elections: map<string, Election>,
    candidates: map<string, Candidate>, store: VoteStore, key: string, voteId: string, now: int)
    : (r: Result<(Vote, VoteStore), CastFailure>)
    ensures p.voter.None? ==> r == Err(NotAVoter)
    ensures p.voter.Some? && !Eligible(p.voter.value) ==> r == Err(NotEligible)
    ensures r.Ok? <==> MayCast(p, req, elections, candidates, store, now)
    ensures r.Ok? ==>
              var v := r.value.0;
              && Insert(store, v) == Some(r.value.1)
              && v.voteId == voteId && v.voterId == p.voter.value.voterId
              && v.electionId == req.electionId && v.candidateId == req.candidateId
              && v.timestamp == now && !v.isVerified
              && VerifyVote(v, key).1
    ensures r.Ok? && WellKeyed(store) ==> WellKeyed(r.value.1)
  {
    if p.voter.None? then Err(NotAVoter)
    else
      var voter := p.voter.value;
      if !voter.canVote || !voter.registrationVerified then Err(NotEligible)
      else
        var errors := ValidateCast(voter, req, elections, candidates, store, now);
        if errors != [] then Err(Invalid(errors))
        else
          var created := NewVote(voteId, voter.voterId, req.electionId, req.candidateId, now);
          var (recorded, _) := RecordVote(created, key, Payload(voter.voterId, req.electionId, req.candidateId, now));
          Ok((recorded, store[KeyOf(recorded) := recorded]))
  }

  /** After a successful cast the same voter cannot vote again in that
      election, for whichever candidate. */
  lemma SecondCastIsRefused(
    p: Principal, req: CastRequest, other: CastRequest, elections: map<string, Election>,
    candidates: map<string, Candidate>, store: VoteStore, key: string, voteId: string, otherId: string, now: int, later: int)
    requires CastVote(p, req, elections, candidates, store, key, voteId, now).Ok?
    requires other.electionId == req.electionId
    ensures var after := CastVote(p, req, elections, candidates, store, key, voteId, now).value.1;
            CastVote(p, other, elections, candidates, after, key, otherId, later).Err?
    ensures var after := CastVote(p, req, elections, candidates, store, key, voteId, now).value.1;
            other.candidateId in candidates && candidates[other.candidateId].electionId == other.electionId
            && CanAcceptVotes(elections[other.electionId], later)
            ==> CastVote(p, other, elections, candidates, after, key, otherId, later) == Err(Invalid([AlreadyVoted]))
  {
  }

  /** A successful cast raises the chosen candidate's windowed count by
      exactly one and leaves every other candidate's count unchanged. */
  lemma CastIsCountedOnce(
    p: Principal, req: CastRequest, elections: map<string, Election>,
    candidates: map<string, Candidate>, store: VoteStore, key: string, voteId: string, now: int, c: Candidate)
    requires CastVote(p, req, elections, candidates, store, key, voteId, now).Ok?
    requires ElectionsKeyed(elections)
    ensures var after := CastVote(p, req, elections, candidates, store, key, voteId, now).value.1;
            var e := elections[req.electionId];
            WindowCount(after, e, c) == WindowCount(store, e, c) + (if c.candidateId == req.candidateId then 1 else 0)
  {
    var v := CastVote(p, req, elections, candidates, store, key, voteId, now).value.0;
    TimelyVoteIsCounted(store, v, elections[req.electionId], c);
  }

  // ---------------------------------------------------------------- verify_vote

  datatype VerifyError = VoteNotFound | NotOwnVote

  /** Vote ids are unique across the table (`vote_id` is a unique UUID). */
  ghost predicate VoteIdsUnique(store: VoteStore) {
    forall k1, k2 :: k1 in store && k2 in store && store[k1].voteId == store[k2].voteId ==> k1 == k2
  }

  /** `verify_vote`: an unknown vote id is an error; only the vote's own
      voter may verify it; the answer is the model's `verify_vote`, and a
      successful check stores the vote with its verified flag set. */
  method VerifyVoteRequest(p: Principal, store: VoteStore, key: string, voteId: string)
    returns (r: Result<(bool, VoteStore), VerifyError>)
    ensures r == Err(VoteNotFound) <==> forall k :: k in store ==> store[k].voteId != voteId
    ensures r.Ok? ==> p.voter.Some?
    ensures r.Ok? ==>
              exists k :: k in store && store[k].voteId == voteId && store[k].voterId == p.voter.value.voterId
                          && r.value == (VerifyVote(store[k], key).1, store[k := VerifyVote(store[k], key).0])
    ensures r == Err(NotOwnVote) ==>
              exists k :: k in store && store[k].voteId == voteId && (p.voter.None? || store[k].voterId != p.voter.value.voterId)
    ensures VoteIdsUnique(store) ==> forall k :: k in store && store[k].voteId == voteId ==>
              (r.Ok? <==> p.voter.Some? && store[k].voterId == p.voter.value.voterId)
  {
    if forall k :: k in store ==> store[k].voteId != voteId {
      return Err(VoteNotFound);
    }
    var k :| k in store && store[k].voteId == voteId;
    var v := store[k];
    if p.voter.None? || v.voterId != p.voter.value.voterId {
      return Err(NotOwnVote);
    }
    var (checked, ok) := VerifyVote(v, key);
    r := Ok((ok, store[k := checked]));
  }

  /** A voter who has just cast a vote and asks to verify it is told it
      verifies, and the stored row is then marked verified. */
  method CastThenVerify(
    p: Principal, req: CastRequest, elections: map<string, Election>,
    candidates: map<string, Candidate>, store: VoteStore, key: string, voteId: string, now: int)
    returns (verified: bool, marked: bool)
    requires MayCast(p, req, elections, candidates, store, now)
    requires VoteIdsUnique(store) && forall k :: k in store ==> store[k].voteId != voteId
    ensures verified && marked
  {
    var cast := CastVote(p, req, elections, candidates, store, key, voteId, now);
    var (v, after) := cast.value;
    var key0 := KeyOf(v);
    assert after[key0] == v;
    assert forall k :: k in after && after[k].voteId == voteId ==> k == key0;
    var answer := VerifyVoteRequest(p, after, key, voteId);
    assert answer.Ok?;
    verified := answer.value.0;
    marked := answer.value.1[key0].isVerified;
  }

  // ---------------------------------------------------------------- history and statistics

  /** The caller's votes, as a set: the rows the history query selects. */
  function OwnVotes(store: VoteStore, voterId: string): set<Vote> {
    set v | v in store.Values && v.voterId == voterId
  }

  function TimestampOf(v: Vote): int {
    v.timestamp
  }

  /** `voting_history`: a voter's own votes, each once, newest first (the
      vote query's `-timestamp` ordering); refused for a non-voter. The
      order among votes cast at the same instant is left open, as the
      database leaves it. */
  method VotingHistory(p: Principal, store: VoteStore) returns (r: Result<seq<Vote>, CastFailure>)
    ensures r.Ok? <==> p.voter.Some?
    ensures r.Ok? ==> forall v :: v in r.value <==> v in store.Values && v.voterId == p.voter.value.voterId
    ensures r.Ok? ==> forall v :: v in r.value ==> multiset(r.value)[v] == 1
    ensures r.Ok? ==> Sorting.Descending(r.value, TimestampOf)
  {
    if p.voter.None? {
      return Err(NotAVoter);
    }
    var mine := OwnVotes(store, p.voter.value.voterId);
    var rows: seq<Vote> := [];
    var rest := mine;
    while rest != {}
      invariant rest <= mine
      invariant forall v :: multiset(rows)[v] == (if v in mine && v !in rest then 1 else 0)
      decreases |rest|
    {
      var v :| v in rest;
      rows := rows + [v];
      rest := rest - {v};
    }
    var sorted := Sorting.Sort(rows, TimestampOf);
    forall v
      ensures v in sorted <==> v in mine
    {
      assert v in sorted <==> multiset(sorted)[v] > 0;
    }
    return Ok(sorted);
  }

  /** The vote just cast is among the caster's votes, so the history lists it. */
  lemma CastAppearsInHistory(
    p: Principal, req: CastRequest, elections: map<string, Election>,
    candidates: map<string, Candidate>, store: VoteStore, key: string, voteId: string, now: int)
    requires CastVote(p, req, elections, candidates, store, key, voteId, now).Ok?
    ensures p.voter.Some?
    ensures var (v, after) := CastVote(p, req, elections, candidates, store, key, voteId, now).value;
            v in OwnVotes(after, p.voter.value.voterId)
  {
    var (v, after) := CastVote(p, req, elections, candidates, store, key, voteId, now).value;
    assert after[KeyOf(v)] == v;
  }

  /** Casting and then asking for the history: the new vote is listed. */
  method CastThenViewHistory(
    p: Principal, req: CastRequest, elections: map<string, Election>,
    candidates: map<string, Candidate>, store: VoteStore, key: string, voteId: string, now: int)
    returns (v: Vote, history: Result<seq<Vote>, CastFailure>)
    requires CastVote(p, req, elections, candidates, store, key, voteId, now).Ok?
    ensures v == CastVote(p, req, elections, candidates, store, key, voteId, now).value.0
    ensures history.Ok? && v in history.value
  {
    var cast := CastVote(p, req, elections, candidates, store, key, voteId, now).value;
    v := cast.0;
    CastAppearsInHistory(p, req, elections, candidates, store, key, voteId, now);
    history := VotingHistory(p, cast.1);
  }

  /** Votes of elections carrying the given title (the statistics group by
      title). */
  function TitleVoteKeys(store: VoteStore, elections: map<string, Election>, title: string): set<(string, string)> {
    set k | k in store && store[k].electionId in elections && elections[store[k].electionId].title == title
  }

  /** `votes_by_election`: vote counts grouped by election title; elections
      sharing a title are merged. */
  function VotesByTitle(store: VoteStore, elections: map<string, Election>): (r: map<string, nat>)
    ensures forall t :: t in r ==> r[t] > 0
    ensures forall k :: k in store && store[k].electionId in elections ==> elections[store[k].electionId].title in r
    ensures forall t :: t in r <==> TitleVoteKeys(store, elections, t) != {}
    ensures forall t :: t in r ==> r[t] == |TitleVoteKeys(store, elections, t)|
  {
    var titles := set k | k in store && store[k].electionId in elections :: elections[store[k].electionId].title;
    TitlesHaveVotes(store, elections, titles);
    forall t | TitleVoteKeys(store, elections, t) != {}
      ensures t in titles
    {
      var k :| k in TitleVoteKeys(store, elections, t);
    }
    map t | t in titles :: |TitleVoteKeys(store, elections, t)|
  }

  lemma TitlesHaveVotes(store: VoteStore, elections: map<string, Election>, titles: set<string>)
    requires titles == set k | k in store && store[k].electionId in elections :: elections[store[k].electionId].title
    ensures forall t :: t in titles ==> |TitleVoteKeys(store, elections, t)| > 0
  {
    forall t | t in titles
      ensures |TitleVoteKeys(store, elections, t)| > 0
    {
      var k :| k in store && store[k].electionId in elections && elections[store[k].electionId].title == t;
      assert k in TitleVoteKeys(store, elections, t);
    }
  }

  /** An election whose title no other election shares gets exactly its own
      votes in the title grouping. */
  lemma UniqueTitleCountsOwnVotes(store: VoteStore, elections: map<string, Election>, electionId: string)
    requires electionId in elections
    requires forall id :: id in elections && id != electionId ==> elections[id].title != elections[electionId].title
    requires ElectionVoteKeys(store, electionId) != {}
    ensures var r := VotesByTitle(store, elections);
            elections[electionId].title in r
            && r[elections[electionId].title] == |ElectionVoteKeys(store, electionId)|
  {
    var title := elections[electionId].title;
    assert TitleVoteKeys(store, elections, title) == ElectionVoteKeys(store, electionId);
  }

  /** The rows cast in one election. */
  function ElectionVoteKeys(store: VoteStore, electionId: string): set<(string, string)> {
    set k | k in store && store[k].electionId == electionId
  }

  /** Two elections that share a title, and share it with no other election,
      get one merged entry: the sum of their own vote counts. */
  lemma SharedTitleMergesVotes(store: VoteStore, elections: map<string, Election>, a: string, b: string)
    requires a in elections && b in elections && a != b
    requires elections[a].title == elections[b].title
    requires forall id :: id in elections && id != a && id != b ==> elections[id].title != elections[a].title
    ensures var r := VotesByTitle(store, elections);
            var t := elections[a].title;
            && (t in r <==> ElectionVoteKeys(store, a) + ElectionVoteKeys(store, b) != {})
            && (t in r ==> r[t] == |ElectionVoteKeys(store, a)| + |ElectionVoteKeys(store, b)|)
  {
    var t := elections[a].title;
    var A := ElectionVoteKeys(store, a);
    var B := ElectionVoteKeys(store, b);
    assert TitleVoteKeys(store, elections, t) == A + B;
    assert A * B == {};
  }

  datatype StatsError = AdminOrInecRequired

  datatype VotingStats = VotingStats(
    totalVotesCast: nat,
    totalEligibleVoters: nat,
    turnout: real,
    votesByElection: map<string, nat>,
    activeSessions: nat)

  /** `voting_stats`: an Admin or INEC profile is required (a superuser
      without one is refused). */
  function VotingStatsEndpoint(
    p: Principal, store: VoteStore, elections: map<string, Election>,
    voters: seq<Voter>, sessions: seq<VotingSessions.Session>): (r: Result<VotingStats, StatsError>)
    ensures r.Ok? <==> p.hasAdmin || p.hasInec
    ensures r.Ok? ==> r.value.totalVotesCast == |store| && r.value.totalEligibleVoters == EligibleCount(voters)
    ensures r.Ok? ==> r.value.turnout == Turnout(|store|, EligibleCount(voters))
    ensures r.Ok? ==> r.value.activeSessions == VotingSessions.ActiveSessionCount(sessions)
    ensures r.Ok? ==> r.value.votesByElection == VotesByTitle(store, elections)
  {
    if !(p.hasAdmin || p.hasInec) then Err(AdminOrInecRequired)
    else
      var eligible := EligibleCount(voters);
      Ok(VotingStats(|store|, eligible, Turnout(|store|, eligible), VotesByTitle(store, elections),
                     VotingSessions.ActiveSessionCount(sessions)))
  }
}

=== FILE: election_clock.dfy ===
/** The election lifecycle of elections/models.py: manual start and end, the
    time-driven status refresh and the voting-window predicates, plus the
    Candidate record. Wall-clock time is the integer `now`. */
module ElectionClock {

  datatype Status = Upcoming | Ongoing | Completed | Cancelled

  datatype ElectionType =
    | Presidential
    | Gubernatorial
    | Senatorial
    | HouseOfReps
    | HouseOfAssembly
    | LocalGovernment

  datatype Election = Election(
    electionId: string,
    title: string,
    kind: ElectionType,
    description: string,
    start: int,
    end: int,
    status: Status,
    createdBy: string)

  datatype Candidate = Candidate(
    candidateId: string,
    name: string,
    party: string,
    position: string,
    biography: string,
    electionId: string)

  /** Position of a status along the lifecycle; cancelled sits apart. */
  function Rank(s: Status): nat {
    match s
    case Upcoming => 0
    case Ongoing => 1
    case Completed => 2
    case Cancelled => 3
  }

  /** The status moved forward along upcoming, ongoing, completed, or did
      not move. Nothing enters or leaves cancelled. */
  ghost predicate ForwardStep(before: Status, after: Status) {
    before == after
    || (before != Cancelled && after != Cancelled && Rank(before) < Rank(after))
  }

  /** Only the status differs between the two records. */
  ghost predicate OnlyStatusChanged(before: Election, after: Election) {
    after == before.(status := after.status)
  }

  /** `start_election`: succeeds exactly from upcoming, whatever the clock
      says, and then the election is ongoing; otherwise nothing changes. */
  function StartElection(e: Election): (r: (Election, bool))
    ensures r.1 <==> e.status == Upcoming
    ensures r.1 ==> r.0.status == Ongoing
    ensures !r.1 ==> r.0 == e
    ensures OnlyStatusChanged(e, r.0) && ForwardStep(e.status, r.0.status)
  {
    if e.status == Upcoming then (e.(status := Ongoing), true) else (e, false)
  }

  /** `end_election`: succeeds exactly from ongoing and then the election
      is completed; otherwise nothing changes. */
  function EndElection(e: Election): (r: (Election, bool))
    ensures r.1 <==> e.status == Ongoing
    ensures r.1 ==> r.0.status == Completed
    ensures !r.1 ==> r.0 == e
    ensures OnlyStatusChanged(e, r.0) && ForwardStep(e.status, r.0.status)
  {
    if e.status == Ongoing then (e.(status := Completed), true) else (e, false)
  }

  /** `now` lies in the voting window, both bounds included. */
  predicate InWindow(e: Election, now: int) {
    e.start <= now <= e.end
  }

  /** `can_accept_votes`. */
  predicate CanAcceptVotes(e: Election, now: int) {
    e.status == Ongoing && InWindow(e, now)
  }

  /** `is_active`, written out separately in the source with the same
      condition. */
  predicate IsActive(e: Election, now: int) {
    e.status == Ongoing && e.start <= now && now <= e.end
  }

  /** The two predicates agree everywhere, and both accept exactly at the
      two ends of the window and nowhere outside it. */
  lemma ActiveIffAcceptingVotes(e: Election, now: int)
    ensures IsActive(e, now) <==> CanAcceptVotes(e, now)
    ensures e.status == Ongoing && e.start <= e.end ==> CanAcceptVotes(e, e.start) && CanAcceptVotes(e, e.end)
    ensures now < e.start || now > e.end || e.status != Ongoing ==> !CanAcceptVotes(e, now)
  {
  }

  /** `check_and_update_status`: upcoming inside the window becomes ongoing;
      ongoing past the end becomes completed; every other case, including
      cancelled, completed and an upcoming election whose window already
      passed, is left alone. Only the status field can change. */
  function CheckAndUpdateStatus(e: Election, now: int): (r: Election)
    ensures OnlyStatusChanged(e, r)
    ensures ForwardStep(e.status, r.status)
    ensures r.status != e.status <==>
              (e.status == Upcoming && InWindow(e, now)) || (e.status == Ongoing && now > e.end)
    ensures e.status == Upcoming && InWindow(e, now) ==> r.status == Ongoing
    ensures e.status == Ongoing && now > e.end ==> r.status == Completed
  {
    if e.status == Upcoming && e.start <= now <= e.end then e.(status := Ongoing)
    else if e.status == Ongoing && now > e.end then e.(status := Completed)
    else e
  }

  /** For a fixed instant, refreshing twice is refreshing once. */
  lemma CheckAndUpdateStatusIsIdempotent(e: Election, now: int)
    ensures CheckAndUpdateStatus(CheckAndUpdateStatus(e, now), now) == CheckAndUpdateStatus(e, now)
  {
  }

  /** After a refresh, an election accepts votes exactly when its window
      holds `now` and it was upcoming or ongoing before. */
  lemma RefreshThenAccepting(e: Election, now: int)
    ensures CanAcceptVotes(CheckAndUpdateStatus(e, now), now) <==>
              InWindow(e, now) && (e.status == Upcoming || e.status == Ongoing)
  {
  }

  /** A table of elections by election id holds each under its own id. */
  ghost predicate ElectionsKeyed(elections: map<string, Election>) {
    forall id :: id in elections ==> elections[id].electionId == id
  }

  /** The `(name, party, election)` uniqueness of the candidate table, and
      unique candidate ids. */
  ghost predicate CandidateTableValid(cs: seq<Candidate>) {
    forall i, j :: 0 <= i < j < |cs| ==>
      cs[i].candidateId != cs[j].candidateId
      && (cs[i].name, cs[i].party, cs[i].electionId) != (cs[j].name, cs[j].party, cs[j].electionId)
  }

  /** Two candidates of one election may share a name only when their
      parties differ. */
  lemma SameNameMeansDifferentParty(cs: seq<Candidate>, i: nat, j: nat)
    requires CandidateTableValid(cs) && i < j < |cs|
    requires cs[i].electionId == cs[j].electionId && cs[i].name == cs[j].name
    ensures cs[i].party != cs[j].party
  {
  }

  /** `Candidate.objects.filter(election=...)`: the candidates of one
      election, in table order. */
  function CandidatesOf(cs: seq<Candidate>, electionId: string): (r: seq<Candidate>)
    ensures |r| <= |cs|
    ensures forall c :: c in r <==> c in cs && c.electionId == electionId
    ensures CandidateTableValid(cs) ==> CandidateTableValid(r)
  {
    if |cs| == 0 then []
    else
      var rest := CandidatesOf(cs[1..], electionId);
      assert forall j :: 0 <= j < |rest| ==> rest[j] in cs[1..];
      if cs[0].electionId == electionId then [cs[0]] + rest else rest
  }

  /** The query keeps the table's order: filtering a concatenation is the
      concatenation of the filtered parts, and one candidate is kept exactly
      when it belongs to the election. */
  lemma {:induction false} CandidatesOfConcat(a: seq<Candidate>, b: seq<Candidate>, c: Candidate, electionId: string)
    ensures CandidatesOf(a + b, electionId) == CandidatesOf(a, electionId) + CandidatesOf(b, electionId)
    ensures CandidatesOf([c], electionId) == if c.electionId == electionId then [c] else []
  {
    if |a| == 0 {
      assert a + b == b;
    } else {
      assert (a + b)[1..] == a[1..] + b;
      CandidatesOfConcat(a[1..], b, c, electionId);
    }
  }
}

=== FILE: incident_api.dfy ===
/** The incident API of incidents/serializers.py and incidents/views.py:
    evidence classification, status-update validation, statistics,
    report attribution and visibility, assignment and status updates. */
module IncidentApi {
  import opened Wrappers
  import opened Text
  import opened Accounts
  import opened Incidents

  // ---------------------------------------------------------------- evidence type

  datatype EvidenceType = Photo | Video | Audio | Document

  /** `s.split('.')[-1]`: the text after the last dot, or all of `s` when
      it has no dot. */
  function LastSegment(s: string): (r: string)
    ensures '.' !in r
    ensures |r| <= |s| && s[|s| - |r|..] == r
    ensures |r| < |s| ==> s[|s| - |r| - 1] == '.'
    ensures '.' !in s ==> r == s
  {
    if |s| == 0 then []
    else if s[|s| - 1] == '.' then []
    else LastSegment(s[..|s| - 1]) + [s[|s| - 1]]
  }

  /** The last segment is determined by the two facts that characterise
      it: it is a dot-free suffix, preceded by a dot or by nothing. */
  lemma {:induction false} LastSegmentIsUnique(s: string, t: string)
    requires '.' !in t && |t| <= |s| && s[|s| - |t|..] == t
    requires |t| < |s| ==> s[|s| - |t| - 1] == '.'
    ensures LastSegment(s) == t
    decreases |s|
  {
    if |s| > 0 && s[|s| - 1] != '.' {
      assert |t| > 0;
      var s' := s[..|s| - 1];
      var t' := t[..|t| - 1];
      assert s'[|s'| - |t'|..] == t';
      assert t' + [t[|t| - 1]] == t;
      LastSegmentIsUnique(s', t');
    }
  }

  /** Lower-casing the file name before splitting is the same as
      lower-casing its last segment: the dot has no case. */
  lemma LowerCommutesWithLastSegment(s: string)
    ensures LastSegment(Lower(s)) == Lower(LastSegment(s))
  {
    var t := LastSegment(s);
    var ls := Lower(s);
    LowerSlice(s, |s| - |t|, |s|);
    assert '.' !in Lower(t);
    LastSegmentIsUnique(ls, Lower(t));
  }

  predicate PhotoExtension(ext: string) { ext in {"jpg", "jpeg", "png", "gif"} }

  predicate VideoExtension(ext: string) { ext in {"mp4", "avi", "mov"} }

  predicate AudioExtension(ext: string) { ext in {"mp3", "wav", "aac"} }

  /** The extension lists, tried in order; anything else is a document. */
  function Classify(ext: string): (r: EvidenceType)
    ensures r == Photo <==> PhotoExtension(ext)
    ensures r == Video <==> VideoExtension(ext)
    ensures r == Audio <==> AudioExtension(ext)
    ensures r == Document <==> !PhotoExtension(ext) && !VideoExtension(ext) && !AudioExtension(ext)
  {
    if PhotoExtension(ext) then Photo
    else if VideoExtension(ext) then Video
    else if AudioExtension(ext) then Audio
    else Document
  }

  /** `_get_evidence_type`: lower-cases the name, then classifies the text
      after its last dot. */
  function EvidenceTypeOf(filename: string): (r: EvidenceType)
    ensures r == Classify(Lower(LastSegment(filename)))
  {
    LowerCommutesWithLastSegment(filename);
    Classify(LastSegment(Lower(filename)))
  }

  /** The text after the last dot of `stem.ext` is `ext`. */
  lemma LastSegmentAfterDot(stem: string, ext: string)
    requires '.' !in ext
    ensures LastSegment(stem + "." + ext) == ext
  {
    var f := stem + "." + ext;
    assert f[|f| - |ext|..] == ext;
    assert f[|f| - |ext| - 1] == '.';
    LastSegmentIsUnique(f, ext);
  }

  /** The classification ignores letter case. */
  lemma EvidenceTypeIgnoresCase(filename: string)
    ensures EvidenceTypeOf(Upper(filename)) == EvidenceTypeOf(filename)
  {
    LowerCommutesWithLastSegment(filename);
    LowerCommutesWithLastSegment(Upper(filename));
    LowerOfUpper(filename);
  }

  /** The classification reads only what follows the last dot, in any
      letter case. */
  lemma EvidenceTypeReadsOnlyTheExtension(stem: string, ext: string)
    requires '.' !in ext
    ensures EvidenceTypeOf(Upper(stem + "." + ext)) == EvidenceTypeOf(ext)
  {
    EvidenceTypeIgnoresCase(stem + "." + ext);
    LastSegmentAfterDot(stem, ext);
  }

  // ---------------------------------------------------------------- status update

  /** The stored names of the status choices. */
  function StatusName(s: IncidentStatus): string {
    match s
    case Pending => "pending"
    case UnderReview => "under_review"
    case Investigating => "investigating"
    case Resolved => "resolved"
    case Dismissed => "dismissed"
  }

  /** `ChoiceField(choices=STATUS_CHOICES)`: exactly the five stored names. */
  function ParseStatus(text: string): (r: Option<IncidentStatus>)
    ensures r.Some? ==> StatusName(r.value) == text
  {
    if text == "pending" then Some(Pending)
    else if text == "under_review" then Some(UnderReview)
    else if text == "investigating" then Some(Investigating)
    else if text == "resolved" then Some(Resolved)
    else if text == "dismissed" then Some(Dismissed)
    else None
  }

  /** Parsing a status's name gives the status back. */
  lemma ParseStatusName(s: IncidentStatus)
    ensures ParseStatus(StatusName(s)) == Some(s)
  {
  }

  datatype StatusUpdateError = NotAChoice | NotesRequired

  /** `IncidentStatusUpdateSerializer`: a valid choice, and non-empty notes
      when resolving or dismissing. Absent notes read as empty. */
  function ValidateStatusUpdate(text: string, notes: Option<string>): (r: Result<(IncidentStatus, string), StatusUpdateError>)
    ensures r.Ok? <==> ParseStatus(text).Some?
                       && (ParseStatus(text).value in {Resolved, Dismissed} ==> notes.Some? && |notes.value| > 0)
    ensures ParseStatus(text).None? ==> r == Err(NotAChoice)
    ensures r.Ok? ==> StatusName(r.value.0) == text && r.value.1 == notes.GetOr([])
  {
    match ParseStatus(text)
    case None => Err(NotAChoice)
    case Some(s) =>
      var n := notes.GetOr([]);
      if (s == Resolved || s == Dismissed) && |n| == 0 then Err(NotesRequired)
      else Ok((s, n))
  }

  // ---------------------------------------------------------------- statistics

  function CountStatus(incidents: seq<Incident>, s: IncidentStatus): (n: nat)
    ensures n <= |incidents|
  {
    if |incidents| == 0 then 0
    else (if incidents[0].status == s then 1 else 0) + CountStatus(incidents[1..], s)
  }

  function CountType(incidents: seq<Incident>, t: IncidentType): (n: nat)
    ensures n <= |incidents|
  {
    if |incidents| == 0 then 0
    else (if incidents[0].kind == t then 1 else 0) + CountType(incidents[1..], t)
  }

  function CountPriority(incidents: seq<Incident>, p: Priority): (n: nat)
    ensures n <= |incidents|
  {
    if |incidents| == 0 then 0
    else (if incidents[0].priority == p then 1 else 0) + CountPriority(incidents[1..], p)
  }

  /** Every report has exactly one of the five statuses. */
  lemma {:induction false} StatusCountsAddUp(incidents: seq<Incident>)
    ensures CountStatus(incidents, Pending) + CountStatus(incidents, UnderReview)
            + CountStatus(incidents, Investigating) + CountStatus(incidents, Resolved)
            + CountStatus(incidents, Dismissed) == |incidents|
  {
    if |incidents| > 0 {
      StatusCountsAddUp(incidents[1..]);
    }
  }

  datatype IncidentStats = IncidentStats(
    total: nat,
    byStatus: map<IncidentStatus, nat>,
    byType: map<IncidentType, nat>,
    byPriority: map<Priority, nat>,
    pending: nat,
    resolved: nat)

  /** `IncidentStatsSerializer`: group-by counts hold only the values that
      occur; the pending and resolved figures are separate filters. */
  function Stats(incidents: seq<Incident>): (r: IncidentStats)
    ensures r.total == |incidents|
    ensures forall s :: s in r.byStatus <==> CountStatus(incidents, s) > 0
    ensures forall s :: s in r.byStatus ==> r.byStatus[s] == CountStatus(incidents, s)
    ensures forall t :: t in r.byType <==> CountType(incidents, t) > 0
    ensures forall t :: t in r.byType ==> r.byType[t] == CountType(incidents, t)
    ensures forall p :: p in r.byPriority <==> CountPriority(incidents, p) > 0
    ensures forall p :: p in r.byPriority ==> r.byPriority[p] == CountPriority(incidents, p)
    ensures r.pending == CountStatus(incidents, Pending) && r.resolved == CountStatus(incidents, Resolved)
  {
    var statuses := set k | 0 <= k < |incidents| :: incidents[k].status;
    var kinds := set k | 0 <= k < |incidents| :: incidents[k].kind;
    var priorities := set k | 0 <= k < |incidents| :: incidents[k].priority;
    OccurringCountsArePositive(incidents);
    IncidentStats(
      |incidents|,
      map s | s in statuses :: CountStatus(incidents, s),
      map t | t in kinds :: CountType(incidents, t),
      map p | p in priorities :: CountPriority(incidents, p),
      CountStatus(incidents, Pending),
      CountStatus(incidents, Resolved))
  }

  /** A value occurs in the table exactly when its count is positive. */
  lemma {:induction false} OccurringCountsArePositive(incidents: seq<Incident>)
    ensures forall s :: CountStatus(incidents, s) > 0 <==> exists k :: 0 <= k < |incidents| && incidents[k].status == s
    ensures forall t :: CountType(incidents, t) > 0 <==> exists k :: 0 <= k < |incidents| && incidents[k].kind == t
    ensures forall p :: CountPriority(incidents, p) > 0 <==> exists k :: 0 <= k < |incidents| && incidents[k].priority == p
  {
    if |incidents| > 0 {
      var rest := incidents[1..];
      OccurringCountsArePositive(rest);
      assert forall k :: 0 <= k < |rest| ==> rest[k] == incidents[k + 1];
      assert forall k :: 1 <= k < |incidents| ==> incidents[k] == rest[k - 1];
    }
  }

  /** The summary figures agree with the grouping: the by-status counts add
      up to the total, and the pending and resolved figures are the
      grouping's entries (0 when the status does not occur). */
  lemma StatsAgree(incidents: seq<Incident>)
    ensures var r := Stats(incidents);
            && r.total == (if Pending in r.byStatus then r.byStatus[Pending] else 0)
                          + (if UnderReview in r.byStatus then r.byStatus[UnderReview] else 0)
                          + (if Investigating in r.byStatus then r.byStatus[Investigating] else 0)
                          + (if Resolved in r.byStatus then r.byStatus[Resolved] else 0)
                          + (if Dismissed in r.byStatus then r.byStatus[Dismissed] else 0)
            && r.pending == (if Pending in r.byStatus then r.byStatus[Pending] else 0)
            && r.resolved == (if Resolved in r.byStatus then r.byStatus[Resolved] else 0)
  {
    StatusCountsAddUp(incidents);
  }

  datatype StatsError = AdminOrInecRequired

  /** `incident_stats`: an Admin or INEC profile is required; a superuser
      without one is refused. */
  function IncidentStatsEndpoint(p: Principal, incidents: seq<Incident>): (r: Result<IncidentStats, StatsError>)
    ensures r.Ok? <==> p.hasAdmin || p.hasInec
    ensures r.Ok? ==> r.value.total == |incidents| && r.value.pending == CountStatus(incidents, Pending)
    ensures r.Ok? ==> r.value == Stats(incidents)
  {
    if p.hasAdmin || p.hasInec then Ok(Stats(incidents)) else Err(AdminOrInecRequired)
  }

  // ---------------------------------------------------------------- filing and visibility

  /** `IncidentReportCreateSerializer.create`: the requester is the
      reporter, and the voter link is set exactly when the requester has a
      voter profile. */
  function FileReport(
    p: Principal, reportId: string, kind: IncidentType, description: string,
    location: string, priority: Option<Priority>, now: int): (r: Incident)
    ensures r.reporter == p.userId
    ensures r.voter.Some? <==> p.voter.Some?
    ensures p.voter.Some? ==> r.voter == Some(p.voter.value.userId)
    ensures r.status == Pending && r.assignedTo.None?
  {
    var voter := if p.voter.Some? then Some(p.voter.value.userId) else None;
    NewIncident(reportId, p.userId, voter, kind, description, location, priority, now)
  }

  function FiledBy(incidents: seq<Incident>, userId: string): (r: seq<Incident>)
    ensures forall i :: i in r <==> i in incidents && i.reporter == userId
    ensures |r| <= |incidents|
  {
    if |incidents| == 0 then []
    else (if incidents[0].reporter == userId then [incidents[0]] else []) + FiledBy(incidents[1..], userId)
  }

  /** The filter keeps the reports' order. */
  lemma {:induction false} FiledByConcat(a: seq<Incident>, b: seq<Incident>, i: Incident, userId: string)
    ensures FiledBy(a + b, userId) == FiledBy(a, userId) + FiledBy(b, userId)
    ensures FiledBy([i], userId) == if i.reporter == userId then [i] else []
  {
    if |a| == 0 {
      assert a + b == b;
    } else {
      assert (a + b)[1..] == a[1..] + b;
      FiledByConcat(a[1..], b, i, userId);
    }
  }

  /** `IncidentReportViewSet.get_queryset`: a requester with a voter
      profile sees only the reports they filed; every other requester sees
      all of them, whatever their role. */
  function VisibleIncidents(p: Principal, incidents: seq<Incident>): (r: seq<Incident>)
    ensures p.voter.None? ==> r == incidents
    ensures forall i :: i in r <==> i in incidents && (p.voter.None? || i.reporter == p.userId)
    ensures p.voter.Some? ==> r == FiledBy(incidents, p.userId)
  {
    if p.voter.Some? then FiledBy(incidents, p.userId) else incidents
  }

  /** A voter's own filing is visible to that voter, and never to another
      voter. */
  lemma OwnReportVisible(p: Principal, q: Principal, incidents: seq<Incident>, reportId: string, kind: IncidentType,
                         description: string, location: string, priority: Option<Priority>, now: int)
    requires p.voter.Some? && q.voter.Some? && q.userId != p.userId
    ensures var filed := FileReport(p, reportId, kind, description, location, priority, now);
            filed in VisibleIncidents(p, incidents + [filed]) && filed !in VisibleIncidents(q, incidents + [filed])
  {
  }

  // ---------------------------------------------------------------- assignment

  /** Incidents by report id. */
  type IncidentTable = map<string, Incident>

  datatype AssignFieldError = IncidentNotFound | OfficialNotFound

  datatype AssignFailure =
    | AssignInvalid(errors: seq<AssignFieldError>)
    | HeldByAnother(holder: string)

  /** `is_admin` of `assign_incident`: an Admin profile or a superuser. */
  predicate IsIncidentAdmin(p: Principal) {
    p.hasAdmin || p.isSuperuser
  }

  /** `assign_incident`. Both ids are validated first and both errors
      reported. An incident already held by the requested official is
      returned unchanged; one held by another official is refused unless
      the requester is an admin; otherwise the official is assigned and the
      incident is being investigated. Any authenticated requester may
      assign an unassigned incident. */
  function AssignIncident(
    p: Principal, incidents: IncidentTable, officials: set<string>,
    incidentId: string, officialId: string, now: int): (r: Result<IncidentTable, AssignFailure>)
    ensures r.Ok? <==>
              && incidentId in incidents && officialId in officials
              && (incidents[incidentId].assignedTo.None?
                  || incidents[incidentId].assignedTo == Some(officialId)
                  || IsIncidentAdmin(p))
    ensures r.Ok? ==> r.value.Keys == incidents.Keys && r.value[incidentId].assignedTo == Some(officialId)
    ensures r.Ok? ==> forall k :: k in incidents && k != incidentId ==> r.value[k] == incidents[k]
    ensures r.Ok? && incidents[incidentId].assignedTo == Some(officialId) ==> r.value == incidents
    ensures r.Ok? && incidents[incidentId].assignedTo != Some(officialId) ==>
              r.value[incidentId] == AssignToOfficial(incidents[incidentId], officialId, now)
    ensures incidentId in incidents && officialId in officials && r.Err? ==>
              r == Err(HeldByAnother(incidents[incidentId].assignedTo.value))
  {
    var errors := (if incidentId in incidents then [] else [IncidentNotFound])
                  + (if officialId in officials then [] else [OfficialNotFound]);
    if errors != [] then Err(AssignInvalid(errors))
    else
      var i := incidents[incidentId];
      if i.assignedTo == Some(officialId) then Ok(incidents)
      else if i.assignedTo.Some? && !IsIncidentAdmin(p) then Err(HeldByAnother(i.assignedTo.value))
      else Ok(incidents[incidentId := AssignToOfficial(i, officialId, now)])
  }

  /** Repeating an assignment, by anyone, changes nothing more. */
  lemma AssignIsIdempotent(
    p: Principal, q: Principal, incidents: IncidentTable, officials: set<string>,
    incidentId: string, officialId: string, now: int, later: int)
    requires AssignIncident(p, incidents, officials, incidentId, officialId, now).Ok?
    ensures var once := AssignIncident(p, incidents, officials, incidentId, officialId, now).value;
            AssignIncident(q, once, officials, incidentId, officialId, later) == Ok(once)
  {
  }

  // ---------------------------------------------------------------- status updates

  datatype UpdateFailure =
    | UpdateForbidden
    | ReportNotFound
    | NotAssignedToYou
    | UpdateInvalid(error: StatusUpdateError)

  /** `update_incident_status`. Only INEC officials, admins and superusers
      may update; a requester with an INEC profile may update only what is
      assigned to them, even when also an admin. The status is set, the
      notes are overwritten only when non-empty, and resolving or
      dismissing goes through the model methods with the given notes. */
  function UpdateIncidentStatus(
    p: Principal, incidents: IncidentTable, incidentId: string,
    statusText: string, notes: Option<string>, now: int): (r: Result<IncidentTable, UpdateFailure>)
    ensures !(p.hasInec || p.hasAdmin || p.isSuperuser) ==> r == Err(UpdateForbidden)
    ensures r.Ok? <==>
              && (p.hasInec || p.hasAdmin || p.isSuperuser)
              && incidentId in incidents
              && (p.hasInec ==> incidents[incidentId].assignedTo == Some(p.userId))
              && ValidateStatusUpdate(statusText, notes).Ok?
    ensures r.Ok? ==>
              var before := incidents[incidentId];
              && incidentId in r.value
              && var after := r.value[incidentId];
              && r.value.Keys == incidents.Keys
              && (forall k :: k in incidents && k != incidentId ==> r.value[k] == incidents[k])
              && StatusName(after.status) == statusText
              && after.resolutionNotes == (if notes.Some? && |notes.value| > 0 then notes.value else before.resolutionNotes)
              && after.assignedTo == before.assignedTo && after.updatedAt == now
              && SameReport(before, after)
  {
    if !(p.hasInec || p.hasAdmin || p.isSuperuser) then Err(UpdateForbidden)
    else if incidentId !in incidents then Err(ReportNotFound)
    else
      var i := incidents[incidentId];
      if p.hasInec && i.assignedTo != Some(p.userId) then Err(NotAssignedToYou)
      else match ValidateStatusUpdate(statusText, notes)
        case Err(e) => Err(UpdateInvalid(e))
        case Ok((status, text)) =>
          var saved := i.(status := status, resolutionNotes := if |text| > 0 then text else i.resolutionNotes, updatedAt := now);
          var finished :=
            if status == Resolved then ResolveIncident(saved, text, now)
            else if status == Dismissed then DismissIncident(saved, text, now)
            else saved;
          Ok(incidents[incidentId := finished])
  }

  /** Resolving or dismissing needs notes, and then those notes are what
      the report keeps. */
  lemma ClosingRecordsNotes(p: Principal, incidents: IncidentTable, incidentId: string, status: IncidentStatus, notes: Option<string>, now: int)
    requires status == Resolved || status == Dismissed
    ensures UpdateIncidentStatus(p, incidents, incidentId, StatusName(status), notes, now).Ok? ==>
              notes.Some? && |notes.value| > 0
              && UpdateIncidentStatus(p, incidents, incidentId, StatusName(status), notes, now).value[incidentId].resolutionNotes == notes.value
              && UpdateIncidentStatus(p, incidents, incidentId, StatusName(status), notes, now).value[incidentId].status == status
  {
  }
}

=== FILE: incidents.dfy ===
/** Incident reports of incidents/models.py: the record with its defaults
    and the five workflow methods. Every method saves, and saving stamps
    `updated_at` with the current time (`auto_now`). */
module Incidents {
  import opened Wrappers

  datatype IncidentType =
    | VoterIntimidation
    | BallotStuffing
    | TechnicalIssue
    | Violence
    | Bribery
    | EquipmentMalfunction
    | UnauthorizedAccess
    | OtherIncident

  datatype IncidentStatus = Pending | UnderReview | Investigating | Resolved | Dismissed

  datatype Priority = Low | Medium | High | Critical

  /** An incident report. People are held by their user ids: the reporter,
      the reporting voter's profile (if any) and the assigned INEC official. */
  datatype Incident = Incident(
    reportId: string,
    reporter: string,
    voter: Option<string>,
    kind: IncidentType,
    description: string,
    location: string,
    status: IncidentStatus,
    priority: Priority,
    createdAt: int,
    updatedAt: int,
    assignedTo: Option<string>,
    resolutionNotes: string)

  /** The fields the workflow never touches: what was reported, by whom,
      when, and how urgent it is. */
  ghost predicate SameReport(a: Incident, b: Incident) {
    a.reportId == b.reportId && a.reporter == b.reporter && a.voter == b.voter
    && a.kind == b.kind && a.description == b.description && a.location == b.location
    && a.priority == b.priority && a.createdAt == b.createdAt
  }

  /** A report as created: pending, medium priority unless one is given,
      unassigned, no notes, both time stamps at `now`. */
  function NewIncident(
    reportId: string, reporter: string, voter: Option<string>, kind: IncidentType,
    description: string, location: string, priority: Option<Priority>, now: int): (r: Incident)
    ensures r.status == Pending && r.assignedTo.None? && r.resolutionNotes == []
    ensures r.priority == (if priority.Some? then priority.value else Medium)
    ensures r.createdAt == now && r.updatedAt == now
    ensures r.reporter == reporter && r.voter == voter && r.kind == kind
    ensures r.description == description && r.location == location && r.reportId == reportId
  {
    Incident(reportId, reporter, voter, kind, description, location, Pending,
             priority.GetOr(Medium), now, now, None, [])
  }

  /** `submit_report`: back to pending; always reports success. */
  function SubmitReport(i: Incident, now: int): (r: (Incident, bool))
    ensures r.1 && r.0.status == Pending && r.0.updatedAt == now
    ensures SameReport(i, r.0) && r.0.assignedTo == i.assignedTo && r.0.resolutionNotes == i.resolutionNotes
  {
    (i.(status := Pending, updatedAt := now), true)
  }

  /** `verify_report`: under review; always reports success. */
  function VerifyReport(i: Incident, now: int): (r: (Incident, bool))
    ensures r.1 && r.0.status == UnderReview && r.0.updatedAt == now
    ensures SameReport(i, r.0) && r.0.assignedTo == i.assignedTo && r.0.resolutionNotes == i.resolutionNotes
  {
    (i.(status := UnderReview, updatedAt := now), true)
  }

  /** `assign_to_official`: the official holds it and it is being
      investigated; the notes are kept. */
  function AssignToOfficial(i: Incident, official: string, now: int): (r: Incident)
    ensures r.assignedTo == Some(official) && r.status == Investigating && r.updatedAt == now
    ensures SameReport(i, r) && r.resolutionNotes == i.resolutionNotes
  {
    i.(assignedTo := Some(official), status := Investigating, updatedAt := now)
  }

  /** `resolve_incident`: resolved, with the given notes; the assignment is
      kept. */
  function ResolveIncident(i: Incident, notes: string, now: int): (r: Incident)
    ensures r.status == Resolved && r.resolutionNotes == notes && r.updatedAt == now
    ensures SameReport(i, r) && r.assignedTo == i.assignedTo
  {
    i.(status := Resolved, resolutionNotes := notes, updatedAt := now)
  }

  /** `dismiss_incident`: dismissed, with the reason as notes. */
  function DismissIncident(i: Incident, reason: string, now: int): (r: Incident)
    ensures r.status == Dismissed && r.resolutionNotes == reason && r.updatedAt == now
    ensures SameReport(i, r) && r.assignedTo == i.assignedTo
  {
    i.(status := Dismissed, resolutionNotes := reason, updatedAt := now)
  }

  /** One workflow step with the time it runs at. */
  datatype Step =
    | Submit(at: int)
    | Review(at: int)
    | Assign(official: string, at: int)
    | Resolve(notes: string, at: int)
    | Dismiss(reason: string, at: int)

  function Apply(i: Incident, s: Step): Incident {
    match s
    case Submit(at) => SubmitReport(i, at).0
    case Review(at) => VerifyReport(i, at).0
    case Assign(official, at) => AssignToOfficial(i, official, at)
    case Resolve(notes, at) => ResolveIncident(i, notes, at)
    case Dismiss(reason, at) => DismissIncident(i, reason, at)
  }

  /** The status a step leaves behind, whatever came before. */
  function StatusAfter(s: Step): IncidentStatus {
    match s
    case Submit(_) => Pending
    case Review(_) => UnderReview
    case Assign(_, _) => Investigating
    case Resolve(_, _) => Resolved
    case Dismiss(_, _) => Dismissed
  }

  function ApplyAll(i: Incident, steps: seq<Step>): Incident
    decreases |steps|
  {
    if |steps| == 0 then i else ApplyAll(Apply(i, steps[0]), steps[1..])
  }

  /** No sequence of workflow steps alters what was reported; afterwards
      the status is the one the last step sets and `updated_at` is its
      time. No status is final: every step is allowed from every status. */
  lemma {:induction false} WorkflowKeepsReport(i: Incident, steps: seq<Step>)
    ensures SameReport(i, ApplyAll(i, steps))
    ensures |steps| > 0 ==> ApplyAll(i, steps).status == StatusAfter(steps[|steps| - 1])
    ensures |steps| > 0 ==> ApplyAll(i, steps).updatedAt == steps[|steps| - 1].at
    ensures |steps| == 0 ==> ApplyAll(i, steps) == i
    decreases |steps|
  {
    if |steps| > 0 {
      WorkflowKeepsReport(Apply(i, steps[0]), steps[1..]);
    }
  }

  /** The assignment changes only through an assign step. */
  lemma {:induction false} AssignmentNeedsAssignStep(i: Incident, steps: seq<Step>)
    requires forall k :: 0 <= k < |steps| ==> !steps[k].Assign?
    ensures ApplyAll(i, steps).assignedTo == i.assignedTo
    decreases |steps|
  {
    if |steps| > 0 {
      AssignmentNeedsAssignStep(Apply(i, steps[0]), steps[1..]);
    }
  }
}

=== FILE: ledger.dfy ===
/** The vote ledger of voting/models.py: the Vote record, its encrypted
    payload, `record_vote` and `verify_vote`, and the vote table with its
    one-vote-per-(voter, election) constraint.

    The symmetric cipher and JSON are modelled symbolically: a token made
    with a key opens only with that same key and yields exactly what was
    sealed, and anything that is not such a token (including a tampered
    one) fails to open. */
module VoteLedger {
  import opened Wrappers

  /** A JSON value of the payload: a string, or the ISO text of a time
      stamp, kept symbolic. */
  datatype JsonValue = JsonText(text: string) | JsonTime(at: int)

  /** A decoded JSON document: an object, or any other JSON text. */
  datatype Plaintext = JsonObject(fields: map<string, JsonValue>) | OtherJson(raw: string)

  /** A stored ciphertext: a token sealed under a key, or raw text. */
  datatype Ciphertext = Sealed(key: string, plain: Plaintext) | Raw(text: string)

  function Encrypt(key: string, p: Plaintext): Ciphertext {
    Sealed(key, p)
  }

  /** Decryption succeeds only for a token sealed under the same key. */
  function Decrypt(key: string, c: Ciphertext): Option<Plaintext> {
    if c.Sealed? && c.key == key then Some(c.plain) else None
  }

  /** Decryption undoes encryption under the same key; under another key,
      or on raw text, it fails. */
  lemma DecryptEncrypt(key: string, other: string, p: Plaintext, text: string)
    ensures Decrypt(key, Encrypt(key, p)) == Some(p)
    ensures other != key ==> Decrypt(other, Encrypt(key, p)).None?
    ensures Decrypt(key, Raw(text)).None?
  {
  }

  /** The vote data the cast view encrypts. */
  datatype Payload = Payload(voterId: string, electionId: string, candidateId: string, castAt: int)

  /** `json.dumps` of the payload dictionary. */
  function PayloadDocument(p: Payload): map<string, JsonValue> {
    map["voter_id" := JsonText(p.voterId),
        "election_id" := JsonText(p.electionId),
        "candidate_id" := JsonText(p.candidateId),
        "timestamp" := JsonTime(p.castAt)]
  }

  /** A Vote row. The voter, election and candidate are held by the external
      ids that the payload carries. */
  datatype Vote = Vote(
    voteId: string,
    voterId: string,
    electionId: string,
    candidateId: string,
    encrypted: Ciphertext,
    timestamp: int,
    isVerified: bool)

  /** A vote as the ORM creates it: empty ciphertext text, cast time from
      `auto_now_add`, not verified. */
  function NewVote(voteId: string, voterId: string, electionId: string, candidateId: string, now: int): (v: Vote)
    ensures !v.isVerified && v.timestamp == now
    ensures v.voterId == voterId && v.electionId == electionId && v.candidateId == candidateId
    ensures v.voteId == voteId
    ensures forall key :: Decrypt(key, v.encrypted).None?
  {
    Vote(voteId, voterId, electionId, candidateId, Raw(""), now, false)
  }

  /** `record_vote`: stores the encrypted payload and reports success; the
      stored text then decrypts to exactly that payload. */
  function RecordVote(v: Vote, key: string, payload: Payload): (r: (Vote, bool))
    ensures r.1
    ensures r.0 == v.(encrypted := r.0.encrypted)
    ensures Decrypt(key, r.0.encrypted) == Some(JsonObject(PayloadDocument(payload)))
  {
    (v.(encrypted := Encrypt(key, JsonObject(PayloadDocument(payload)))), true)
  }

  /** `vote_data.get(name) == text`, false when the key is missing or holds
      a value of another kind. */
  predicate FieldIs(doc: map<string, JsonValue>, name: string, text: string) {
    name in doc && doc[name] == JsonText(text)
  }

  /** The payload decrypts to an object whose three ids are the vote's own. */
  ghost predicate Authentic(v: Vote, key: string) {
    var decrypted := Decrypt(key, v.encrypted);
    decrypted.Some? && decrypted.value.JsonObject?
    && FieldIs(decrypted.value.fields, "voter_id", v.voterId)
    && FieldIs(decrypted.value.fields, "election_id", v.electionId)
    && FieldIs(decrypted.value.fields, "candidate_id", v.candidateId)
  }

  /** `verify_vote`: true, and the verified flag set, exactly when the
      decrypted payload names the vote's voter, election and candidate. A
      decryption or parse failure or a mismatch returns false and changes
      nothing; no failure escapes. */
  function VerifyVote(v: Vote, key: string): (r: (Vote, bool))
    ensures r.1 <==> Authentic(v, key)
    ensures r.1 ==> r.0 == v.(isVerified := true)
    ensures !r.1 ==> r.0 == v
  {
    match Decrypt(key, v.encrypted)
    case None => (v, false)
    case Some(plain) =>
      match plain
      case OtherJson(_) => (v, false)
      case JsonObject(doc) =>
        if FieldIs(doc, "voter_id", v.voterId)
           && FieldIs(doc, "election_id", v.electionId)
           && FieldIs(doc, "candidate_id", v.candidateId)
        then (v.(isVerified := true), true)
        else (v, false)
  }

  /** Verification is repeatable: calling it again on its own result gives
      the same answer and the same record. */
  lemma VerifyVoteIsIdempotent(v: Vote, key: string)
    ensures VerifyVote(VerifyVote(v, key).0, key) == VerifyVote(v, key)
  {
  }

  /** Recording the vote's own ids and then verifying succeeds; recording a
      payload that names another candidate makes verification fail. */
  lemma RecordThenVerify(v: Vote, key: string, castAt: int, otherCandidate: string)
    ensures var p := Payload(v.voterId, v.electionId, v.candidateId, castAt);
            VerifyVote(RecordVote(v, key, p).0, key).1
    ensures otherCandidate != v.candidateId ==>
            var p := Payload(v.voterId, v.electionId, otherCandidate, castAt);
            !VerifyVote(RecordVote(v, key, p).0, key).1
  {
  }

  /** A freshly created vote does not verify under any key until
      `record_vote` stores its own payload, after which it does. */
  lemma NewVoteVerifiesOnlyAfterRecording(
    voteId: string, voterId: string, electionId: string, candidateId: string, now: int, key: string)
    ensures !VerifyVote(NewVote(voteId, voterId, electionId, candidateId, now), key).1
    ensures var v := NewVote(voteId, voterId, electionId, candidateId, now);
            VerifyVote(RecordVote(v, key, Payload(voterId, electionId, candidateId, now)).0, key).1
  {
    RecordThenVerify(NewVote(voteId, voterId, electionId, candidateId, now), key, now, candidateId);
  }

  /** A vote whose stored text was replaced, or that is checked with another
      key, fails verification and stays unverified. */
  lemma TamperedVoteFailsVerification(v: Vote, key: string, text: string, other: string)
    ensures !VerifyVote(v.(encrypted := Raw(text)), key).1
    ensures VerifyVote(v.(encrypted := Raw(text)), key).0 == v.(encrypted := Raw(text))
    ensures v.encrypted.Sealed? && v.encrypted.key != other ==> !VerifyVote(v, other).1
  {
  }

  // ---------------------------------------------------------------- the vote table

  /** The vote table, keyed by (voter id, election id): the key itself is the
      `unique_together = ['voter', 'election']` constraint. */
  type VoteStore = map<(string, string), Vote>

  /** Every stored vote sits under its own (voter, election) key. */
  ghost predicate WellKeyed(store: VoteStore) {
    forall k :: k in store ==> store[k].voterId == k.0 && store[k].electionId == k.1
  }

  function KeyOf(v: Vote): (string, string) {
    (v.voterId, v.electionId)
  }

  /** Inserting a row: refused when the voter already has a vote in that
      election, whatever its candidate; otherwise exactly one row is added. */
  function Insert(store: VoteStore, v: Vote): (r: Option<VoteStore>)
    ensures r.None? <==> KeyOf(v) in store
    ensures r.Some? ==> r.value.Keys == store.Keys + {KeyOf(v)} && |r.value| == |store| + 1
    ensures r.Some? ==> r.value[KeyOf(v)] == v
    ensures r.Some? ==> forall k :: k in store ==> r.value[k] == store[k]
    ensures r.Some? && WellKeyed(store) ==> WellKeyed(r.value)
  {
    if KeyOf(v) in store then None else Some(store[KeyOf(v) := v])
  }

  /** After one vote of a voter in an election is stored, a second insert for
      the same pair fails whichever candidate it names. */
  lemma SecondInsertFails(store: VoteStore, v: Vote, w: Vote)
    requires Insert(store, v).Some?
    requires w.voterId == v.voterId && w.electionId == v.electionId
    ensures Insert(Insert(store, v).value, w).None?
  {
  }
}

=== FILE: registration.dfy ===
/** Registration, login and password-change validation of
    authentication/serializers.py. Password hashing and `authenticate` are
    foreign: the latter is a function parameter, `check_password` a flag. */
module Registration {
  import opened Wrappers
  import opened Text
  import opened Accounts

  // ---------------------------------------------------------------- phone normalisation

  /** `s.replace(c, '')`. */
  function RemoveChar(s: string, c: char): (r: string)
    ensures c !in r
    ensures forall d :: d != c ==> multiset(r)[d] == multiset(s)[d]
    ensures c !in s ==> r == s
  {
    if |s| == 0 then []
    else
      assert s == [s[0]] + s[1..];
      (if s[0] == c then [] else [s[0]]) + RemoveChar(s[1..], c)
  }

  /** `replace` works piece by piece and keeps order: removing from a
      concatenation concatenates the two results, and a single character is
      dropped exactly when it is `c`. */
  lemma {:induction false} RemoveCharConcat(s: string, t: string, x: char, c: char)
    ensures RemoveChar(s + t, c) == RemoveChar(s, c) + RemoveChar(t, c)
    ensures RemoveChar([x], c) == if x == c then [] else [x]
  {
    if |s| == 0 {
      assert s + t == t;
    } else {
      assert (s + t)[1..] == s[1..] + t;
      RemoveCharConcat(s[1..], t, x, c);
    }
  }

  predicate IsSeparator(c: char) {
    c == ' ' || c == '-'
  }

  /** The phone clean-up shared by login, registration and user creation:
      `value.replace(' ', '').replace('-', '')`. It removes every space and
      hyphen, keeps every other character as often as it occurred, and leaves
      a phone without separators as it is. */
  function NormalisePhone(s: string): (r: string)
    ensures forall i :: 0 <= i < |r| ==> !IsSeparator(r[i])
    ensures forall c :: !IsSeparator(c) ==> multiset(r)[c] == multiset(s)[c]
    ensures (forall i :: 0 <= i < |s| ==> !IsSeparator(s[i])) ==> r == s
  {
    var spaceless := RemoveChar(s, ' ');
    var r := RemoveChar(spaceless, '-');
    assert multiset(spaceless)[' '] == 0;
    assert forall i :: 0 <= i < |r| ==> r[i] in multiset(r);
    r
  }

  /** Normalising twice is normalising once, so the second clean-up in
      `RegistrationSerializer.create` is a no-op. */
  lemma NormalisePhoneIsIdempotent(s: string)
    ensures NormalisePhone(NormalisePhone(s)) == NormalisePhone(s)
  {
  }

  /** Normalisation keeps the order of what remains: it works piece by
      piece, drops a separator and keeps any other character. */
  lemma NormalisePhoneConcat(s: string, t: string, x: char)
    ensures NormalisePhone(s + t) == NormalisePhone(s) + NormalisePhone(t)
    ensures NormalisePhone([x]) == if IsSeparator(x) then [] else [x]
  {
    RemoveCharConcat(s, t, x, ' ');
    RemoveCharConcat(RemoveChar(s, ' '), RemoveChar(t, ' '), x, '-');
    RemoveCharConcat([], [], x, ' ');
    if x != ' ' {
      RemoveCharConcat([], [], x, '-');
    }
  }

  // ---------------------------------------------------------------- login

  datatype LoginError = MissingCredentials | AccountDisabled | InvalidCredentials

  /** `LoginSerializer.validate`: both fields must be non-empty; the phone
      is normalised before it is handed to `authenticate`; an inactive
      account is refused. */
  function Login(phone: string, password: string, authenticate: (string, string) -> Option<User>): (r: Result<User, LoginError>)
    ensures r == Err(MissingCredentials) <==> |phone| == 0 || |password| == 0
    ensures r.Ok? ==> authenticate(NormalisePhone(phone), password) == Some(r.value) && r.value.isActive
    ensures |phone| > 0 && |password| > 0 && authenticate(NormalisePhone(phone), password).None? ==>
              r == Err(InvalidCredentials)
    ensures r == Err(AccountDisabled) ==> !authenticate(NormalisePhone(phone), password).value.isActive
    ensures |phone| > 0 && |password| > 0 && authenticate(NormalisePhone(phone), password).Some? ==>
              var u := authenticate(NormalisePhone(phone), password).value;
              r == (if u.isActive then Ok(u) else Err(AccountDisabled))
  {
    if |phone| == 0 || |password| == 0 then Err(MissingCredentials)
    else
      match authenticate(NormalisePhone(phone), password)
      case None => Err(InvalidCredentials)
      case Some(u) => if u.isActive then Ok(u) else Err(AccountDisabled)
  }

  /** Separators in the phone do not matter: logging in with a phone and
      with its normalised form give the same outcome, as long as something
      is left after normalising. */
  lemma LoginIgnoresSeparators(phone: string, password: string, authenticate: (string, string) -> Option<User>)
    requires |NormalisePhone(phone)| > 0
    ensures Login(phone, password, authenticate) == Login(NormalisePhone(phone), password, authenticate)
  {
    NormalisePhoneIsIdempotent(phone);
  }

  // ---------------------------------------------------------------- registration

  const MinPasswordLength: int := 8
  const MaxNameLength: int := 255
  const MaxPhoneLength: int := 15

  /** The birth-date field as submitted: left out, sent as null, or a date. */
  datatype DobInput = DobOmitted | DobNull | DobGiven(date: Date)

  datatype RegistrationRequest = RegistrationRequest(
    name: string,
    phone: string,
    dob: DobInput,
    password: string,
    passwordConfirm: string,
    voterId: string,
    cardId: string)

  /** What is already registered: phone numbers, voter ids and card ids. */
  datatype Directory = Directory(phones: set<string>, voterIds: set<string>, cardIds: set<string>)

  datatype RegistrationError =
    | NameMissing
    | NameTooLong
    | PhoneMissing
    | PhoneTooLong
    | PhoneMalformed
    | PhoneTaken
    | DobRequired
    | DobUnderage
    | PasswordTooShort
    | PasswordConfirmMissing
    | VoterIdTooLong
    | VoterIdRejected(reason: VoterIdError)
    | VoterIdTaken
    | CardIdTaken
    | PasswordMismatch

  datatype RegistrationFailure =
    | Invalid(errors: seq<RegistrationError>)
    | CreationFailed(reason: AccountError)

  function NameErrors(name: string): seq<RegistrationError> {
    if |name| == 0 then [NameMissing]
    else if |name| > MaxNameLength then [NameTooLong]
    else []
  }

  /** The model field's validators (length, pattern, uniqueness of the raw
      value) run first; only when they all pass does the serializer hook
      check the normalised number. */
  function PhoneErrors(phone: string, dir: Directory): seq<RegistrationError> {
    if |phone| == 0 then [PhoneMissing]
    else
      var fieldErrors :=
        (if |phone| > MaxPhoneLength then [PhoneTooLong] else [])
        + (if !PhonePattern(phone) then [PhoneMalformed] else [])
        + (if phone in dir.phones then [PhoneTaken] else []);
      if fieldErrors != [] then fieldErrors
      else if NormalisePhone(phone) in dir.phones then [PhoneTaken]
      else []
  }

  /** An omitted birth date is skipped by the serializer; only an explicit
      null reaches the "required" check. */
  function DobErrors(dob: DobInput, today: Date): seq<RegistrationError> {
    match dob
    case DobOmitted => []
    case DobNull => [DobRequired]
    case DobGiven(d) => if ValidateAge(d, today).Err? then [DobUnderage] else []
  }

  /** Length limit of the serializer field, then `validate_voter_id`, then
      uniqueness of the upper-cased id. */
  function VoterIdErrors(voterId: string, dir: Directory): seq<RegistrationError> {
    if |voterId| > VoterIdLength then [VoterIdTooLong]
    else
      match ValidateVoterId(voterId)
      case Err(e) => [VoterIdRejected(e)]
      case Ok(id) => if id in dir.voterIds then [VoterIdTaken] else []
  }

  function CardIdErrors(cardId: string, dir: Directory): seq<RegistrationError> {
    if |cardId| > 0 && cardId in dir.cardIds then [CardIdTaken] else []
  }

  /** Field-level errors of every field, in declaration order. */
  function FieldErrors(req: RegistrationRequest, dir: Directory, today: Date): seq<RegistrationError> {
    NameErrors(req.name)
    + PhoneErrors(req.phone, dir)
    + DobErrors(req.dob, today)
    + (if |req.password| < MinPasswordLength then [PasswordTooShort] else [])
    + (if |req.passwordConfirm| == 0 then [PasswordConfirmMissing] else [])
    + VoterIdErrors(req.voterId, dir)
    + CardIdErrors(req.cardId, dir)
  }

  ghost predicate PhoneAdmissible(phone: string, dir: Directory) {
    |phone| <= MaxPhoneLength && PhonePattern(phone)
    && phone !in dir.phones && NormalisePhone(phone) !in dir.phones
  }

  ghost predicate DobAdmissible(dob: DobInput, today: Date) {
    !dob.DobNull? && (dob.DobGiven? ==> AnniversaryReached(dob.date, today, MinimumAge))
  }

  ghost predicate VoterIdAdmissible(voterId: string, dir: Directory) {
    WellFormedVoterId(voterId) && Upper(voterId) !in dir.voterIds
  }

  /** Declarative statement of everything registration demands. */
  ghost predicate Admissible(req: RegistrationRequest, dir: Directory, today: Date) {
    && 0 < |req.name| <= MaxNameLength
    && PhoneAdmissible(req.phone, dir)
    && DobAdmissible(req.dob, today)
    && |req.password| >= MinPasswordLength
    && req.password == req.passwordConfirm
    && VoterIdAdmissible(req.voterId, dir)
    && (|req.cardId| == 0 || req.cardId !in dir.cardIds)
  }

  /** The field checks pass exactly when every per-field demand holds. */
  lemma FieldErrorsEmpty(req: RegistrationRequest, dir: Directory, today: Date)
    ensures FieldErrors(req, dir, today) == [] <==>
      && 0 < |req.name| <= MaxNameLength
      && PhoneAdmissible(req.phone, dir)
      && DobAdmissible(req.dob, today)
      && |req.password| >= MinPasswordLength
      && |req.passwordConfirm| > 0
      && VoterIdAdmissible(req.voterId, dir)
      && (|req.cardId| == 0 || req.cardId !in dir.cardIds)
  {
    assert PhoneErrors(req.phone, dir) == [] <==> PhoneAdmissible(req.phone, dir);
    assert DobErrors(req.dob, today) == [] <==> DobAdmissible(req.dob, today);
    assert VoterIdErrors(req.voterId, dir) == [] <==> VoterIdAdmissible(req.voterId, dir);
  }

  /** `RegistrationSerializer` validation followed by `create`: a user with
      the normalised phone and role voter, and one voter profile holding the
      upper-cased voter id, a blank card id stored as None, and both
      eligibility flags false. A phone made only of separators passes
      validation but normalises to the empty string, which `create_user`
      refuses. */
  function Register(req: RegistrationRequest, dir: Directory, today: Date, newUserId: string): (r: Result<(User, Voter), RegistrationFailure>)
    ensures r.Ok? <==> Admissible(req, dir, today) && |NormalisePhone(req.phone)| > 0
    ensures Admissible(req, dir, today) && |NormalisePhone(req.phone)| == 0 ==> r == Err(CreationFailed(PhoneRequired))
    ensures req.password != req.passwordConfirm ==> r.Err?
    ensures r.Ok? ==> var (u, v) := r.value;
              && u.phone == NormalisePhone(req.phone) && u.phone !in dir.phones
              && u.name == req.name && u.role == VoterRole && !u.isStaff && !u.isSuperuser
              && v.userId == newUserId
              && v.voterId == Upper(req.voterId) && v.voterId !in dir.voterIds
              && v.cardId == (if |req.cardId| == 0 then None else Some(req.cardId))
              && !v.registrationVerified && !v.canVote
  {
    var errors := FieldErrors(req, dir, today);
    FieldErrorsEmpty(req, dir, today);
    if errors != [] then Err(Invalid(errors))
    else if req.password != req.passwordConfirm then Err(Invalid([PasswordMismatch]))
    else
      var phone := NormalisePhone(req.phone);
      NormalisePhoneIsIdempotent(req.phone);
      var dob := if req.dob.DobGiven? then Some(req.dob.date) else None;
      match CreateUser(NormalisePhone(phone), req.name, ExtraFields(None, None, Some(VoterRole), dob), today)
      case Err(e) => Err(CreationFailed(e))
      case Ok(u) =>
        var voterId := ValidateVoterId(req.voterId).value;
        ValidateVoterIdIsIdempotent(req.voterId);
        match NewVoter(newUserId, voterId, if |req.cardId| == 0 then None else Some(req.cardId))
        case Err(_) => Err(Invalid([VoterIdRejected(VoterIdRequired)]))
        case Ok(v) => Ok((u, v))
  }

  // ---------------------------------------------------------------- password change

  datatype PasswordChangeError =
    | CurrentPasswordMissing
    | CurrentPasswordIncorrect
    | NewPasswordTooShort
    | ConfirmPasswordMissing
    | NewPasswordMismatch
    | NewPasswordSameAsCurrent

  /** `PasswordChangeSerializer`: field checks (the current password must be
      given and correct, the new one at least 8 characters, the confirmation
      present), then confirmation must match and the new password must
      differ from the current one. Returns the password to set. */
  function ChangePassword(currentCorrect: bool, current: string, replacement: string, confirm: string): (r: Result<string, seq<PasswordChangeError>>)
    ensures r.Ok? <==> |current| > 0 && currentCorrect && |replacement| >= MinPasswordLength
                       && replacement == confirm && replacement != current
    ensures r.Ok? ==> r.value == replacement
    ensures replacement == current ==> r.Err?
  {
    var fieldErrors :=
      (if |current| == 0 then [CurrentPasswordMissing]
       else if !currentCorrect then [CurrentPasswordIncorrect] else [])
      + (if |replacement| < MinPasswordLength then [NewPasswordTooShort] else [])
      + (if |confirm| == 0 then [ConfirmPasswordMissing] else []);
    if fieldErrors != [] then Err(fieldErrors)
    else if replacement != confirm then Err([NewPasswordMismatch])
    else if current == replacement then Err([NewPasswordSameAsCurrent])
    else Ok(replacement)
  }
}

=== FILE: result_views.dfy ===
/** The election endpoints of elections/views.py and the derived fields of
    elections/serializers.py: the admin-only lifecycle actions, the final
    and live results, and the `results` and `is_active` fields. */
module ResultViews {
  import opened Wrappers
  import opened Accounts
  import opened ElectionClock
  import opened VoteLedger
  import opened Tally
  import StatusRefresh

  datatype ViewError =
    | Forbidden
    | ElectionNotFound
    | CannotStart
    | CannotEnd
    | ResultsNotFinal
    | NotOngoing

  /** Superuser, Admin profile or the admin role: the gate of election and
      candidate creation and of the start, end and status-check actions. */
  predicate IsElectionAdmin(p: Principal) {
    p.isSuperuser || p.hasAdmin || p.role == AdminRole
  }

  /** `ElectionViewSet.create` and `CandidateViewSet.create`: who may add an
      election or a candidate. */
  function CreateGate(p: Principal): (r: Result<(), ViewError>)
    ensures r.Ok? <==> p.isSuperuser || p.hasAdmin || p.role == AdminRole
    ensures r.Err? ==> r.error == Forbidden
  {
    if IsElectionAdmin(p) then Ok(()) else Err(Forbidden)
  }

  /** The election gate admits everyone the voter-management gate admits
      except INEC officials without an admin standing, and also plain users
      holding the admin role. */
  lemma ElectionGateVersusVoterGate(p: Principal)
    ensures p.isSuperuser || p.hasAdmin ==> IsElectionAdmin(p) && CanManageVoters(p)
    ensures p.hasInec && !p.isSuperuser && !p.hasAdmin && p.role != AdminRole ==> !IsElectionAdmin(p) && CanManageVoters(p)
    ensures p.role == AdminRole && !p.isSuperuser && !p.hasAdmin && !p.hasInec ==> IsElectionAdmin(p) && !CanManageVoters(p)
  {
  }

  /** The shared shape of `start_election` and `end_election`: the role
      check comes before the lookup, then the model's transition decides. */
  function Transition(p: Principal, elections: map<string, Election>, electionId: string, starting: bool): (r: Result<map<string, Election>, ViewError>)
    ensures !IsElectionAdmin(p) ==> r == Err(Forbidden)
    ensures IsElectionAdmin(p) && electionId !in elections ==> r == Err(ElectionNotFound)
    ensures r.Ok? ==> electionId in elections && r.value.Keys == elections.Keys
    ensures r.Ok? ==> forall k :: k in elections && k != electionId ==> r.value[k] == elections[k]
  {
    if !IsElectionAdmin(p) then Err(Forbidden)
    else if electionId !in elections then Err(ElectionNotFound)
    else
      var (e, ok) := if starting then StartElection(elections[electionId]) else EndElection(elections[electionId]);
      if ok then Ok(elections[electionId := e])
      else Err(if starting then CannotStart else CannotEnd)
  }

  /** `start_election`: succeeds exactly for an admin on an upcoming
      election, which becomes ongoing. */
  function StartEndpoint(p: Principal, elections: map<string, Election>, electionId: string): (r: Result<map<string, Election>, ViewError>)
    ensures r.Ok? <==> IsElectionAdmin(p) && electionId in elections && elections[electionId].status == Upcoming
    ensures r.Ok? ==> electionId in r.value && r.value[electionId] == elections[electionId].(status := Ongoing)
    ensures r.Err? && IsElectionAdmin(p) && electionId in elections ==> r.error == CannotStart
  {
    Transition(p, elections, electionId, true)
  }

  /** `end_election`: succeeds exactly for an admin on an ongoing election,
      which becomes completed. */
  function EndEndpoint(p: Principal, elections: map<string, Election>, electionId: string): (r: Result<map<string, Election>, ViewError>)
    ensures r.Ok? <==> IsElectionAdmin(p) && electionId in elections && elections[electionId].status == Ongoing
    ensures r.Ok? ==> electionId in r.value && r.value[electionId] == elections[electionId].(status := Completed)
    ensures r.Err? && IsElectionAdmin(p) && electionId in elections ==> r.error == CannotEnd
  {
    Transition(p, elections, electionId, false)
  }

  /** Start then end takes an upcoming election to completed; neither
      action can be repeated, and ending before starting fails. */
  lemma StartThenEnd(p: Principal, elections: map<string, Election>, electionId: string)
    requires IsElectionAdmin(p) && electionId in elections && elections[electionId].status == Upcoming
    ensures var started := StartEndpoint(p, elections, electionId).value;
            && EndEndpoint(p, elections, electionId) == Err(CannotEnd)
            && StartEndpoint(p, started, electionId) == Err(CannotStart)
            && EndEndpoint(p, started, electionId).Ok?
            && EndEndpoint(p, started, electionId).value[electionId].status == Completed
            && EndEndpoint(p, EndEndpoint(p, started, electionId).value, electionId) == Err(CannotEnd)
  {
  }

  /** `check_election_status` view: admins only; runs the management
      command's refresh and reports how many elections changed. */
  method CheckStatusEndpoint(p: Principal, elections: seq<Election>, now: int)
    returns (r: Result<(seq<Election>, nat), ViewError>)
    ensures r.Err? <==> !IsElectionAdmin(p)
    ensures r.Err? ==> r.error == Forbidden
    ensures r.Ok? ==>
              && |r.value.0| == |elections|
              && (forall i :: 0 <= i < |elections| ==> r.value.0[i] == CheckAndUpdateStatus(elections[i], now))
              && r.value.1 == StatusRefresh.ChangedCount(elections, r.value.0)
  {
    if !IsElectionAdmin(p) {
      return Err(Forbidden);
    }
    var refreshed, updated := StatusRefresh.RefreshAll(elections, now);
    r := Ok((refreshed, updated));
  }

  // ---------------------------------------------------------------- serializer fields

  /** `ElectionSerializer.get_results`: the name-keyed results once the
      election is completed, none before. */
  function ResultsField(store: VoteStore, e: Election, candidates: seq<Candidate>): (r: Option<Tallies>)
    ensures r.Some? <==> e.status == Completed
    ensures r.Some? ==> Keys(r.value) == set c | c in CandidatesOf(candidates, e.electionId) :: c.name
    ensures r.Some? ==> r.value == Results(store, e, CandidatesOf(candidates, e.electionId))
  {
    if e.status == Completed then
      var cs := CandidatesOf(candidates, e.electionId);
      var r := Results(store, e, cs);
      assert Keys(r) == set c | c in cs :: c.name by {
        assert forall i :: 0 <= i < |cs| ==> cs[i] in cs;
      }
      Some(r)
    else None
  }

  /** `ElectionSerializer.get_is_active` and the refresh-free activity
      check: the stored status must already be ongoing. */
  function IsActiveField(e: Election, now: int): (r: bool)
    ensures r <==> e.status == Ongoing && InWindow(e, now)
    ensures r ==> CanAcceptVotes(e, now)
  {
    IsActive(e, now)
  }

  // ---------------------------------------------------------------- results endpoints

  datatype FinalReport = FinalReport(results: Tallies, totalVotes: nat, voterTurnout: real)

  /** `election_results` with `ElectionResultsSerializer`: only a completed
      election has results; the total is the sum of the dict's values and
      the turnout divides it by the number of voters allowed to vote. */
  function FinalResultsEndpoint(
    elections: map<string, Election>, electionId: string, store: VoteStore,
    candidates: seq<Candidate>, voters: seq<Voter>): (r: Result<FinalReport, ViewError>)
    ensures electionId !in elections ==> r == Err(ElectionNotFound)
    ensures r.Ok? <==> electionId in elections && elections[electionId].status == Completed
    ensures r.Ok? ==> var e := elections[electionId];
                      var cs := CandidatesOf(candidates, e.electionId);
                      && r.value.results == Results(store, e, cs)
                      && r.value.totalVotes == Total(r.value.results)
                      && r.value.voterTurnout == Turnout(r.value.totalVotes, EligibleCount(voters))
  {
    if electionId !in elections then Err(ElectionNotFound)
    else
      var e := elections[electionId];
      if e.status != Completed then Err(ResultsNotFinal)
      else
        var results := Results(store, e, CandidatesOf(candidates, e.electionId));
        var total := Total(results);
        Ok(FinalReport(results, total, Turnout(total, EligibleCount(voters))))
  }

  /** The `results` field of a completed election and the results endpoint
      report the same dict, and the endpoint's total is the sum of the
      field's values. */
  lemma ResultsFieldMatchesEndpoint(
    elections: map<string, Election>, electionId: string, store: VoteStore,
    candidates: seq<Candidate>, voters: seq<Voter>)
    requires electionId in elections && elections[electionId].status == Completed
    ensures var field := ResultsField(store, elections[electionId], candidates);
            var report := FinalResultsEndpoint(elections, electionId, store, candidates, voters);
            field.Some? && report.Ok? && report.value.results == field.value
            && report.value.totalVotes == Total(field.value)
  {
  }

  datatype LiveReport = LiveReport(electionId: string, title: string, status: Status, rows: seq<LiveEntry>, totalVotes: nat)

  /** `live_election_results`: only for an election whose stored status is
      ongoing (no refresh first); rows sorted by votes and their total. */
  function LiveResultsEndpoint(
    elections: map<string, Election>, electionId: string, store: VoteStore,
    candidates: seq<Candidate>): (r: Result<LiveReport, ViewError>)
    ensures electionId !in elections ==> r == Err(ElectionNotFound)
    ensures r.Ok? <==> electionId in elections && elections[electionId].status == Ongoing
    ensures r.Ok? ==> var e := elections[electionId];
                      && r.value.rows == LiveResults(store, e, CandidatesOf(candidates, e.electionId))
                      && r.value.status == Ongoing && r.value.electionId == e.electionId
                      && (forall i, j :: 0 <= i < j < |r.value.rows| ==> r.value.rows[i].voteCount >= r.value.rows[j].voteCount)
    ensures r.Ok? ==> var e := elections[electionId];
                      && r.value.totalVotes == Sorting.KeySum(r.value.rows, VotesOf)
                      && r.value.totalVotes == Total(Assignments(store, e, CandidatesOf(candidates, e.electionId)))
  {
    if electionId !in elections then Err(ElectionNotFound)
    else
      var e := elections[electionId];
      if e.status != Ongoing then Err(NotOngoing)
      else
        var cs := CandidatesOf(candidates, e.electionId);
        var rows := LiveResults(store, e, cs);
        LiveTotalIsSumOfCounts(store, e, cs);
        Ok(LiveReport(e.electionId, e.title, e.status, rows, Sorting.KeySum(rows, VotesOf)))
  }

  /** The windowed counts read the election's id and end only, so the
      final results do not depend on the stored status. */
  lemma ResultsIgnoreStatus(store: VoteStore, e: Election, status: Status, cs: seq<Candidate>)
    ensures Results(store, e.(status := status), cs) == Results(store, e, cs)
  {
    assert Assignments(store, e.(status := status), cs) == Assignments(store, e, cs);
  }

  /** The live total counts every candidate's windowed votes; for an
      election with no two same-named candidates it is the total the final
      results will show once the election is completed. */
  lemma LiveTotalMatchesFinalTotal(
    elections: map<string, Election>, electionId: string, store: VoteStore, candidates: seq<Candidate>, voters: seq<Voter>)
    requires electionId in elections && elections[electionId].status == Ongoing
    requires NamesDistinct(CandidatesOf(candidates, elections[electionId].electionId))
    ensures var completed := elections[electionId := elections[electionId].(status := Completed)];
            LiveResultsEndpoint(elections, electionId, store, candidates).value.totalVotes
              == FinalResultsEndpoint(completed, electionId, store, candidates, voters).value.totalVotes
  {
    var e := elections[electionId];
    var cs := CandidatesOf(candidates, e.electionId);
    FinalTotalAtMostLiveTotal(store, e, cs);
    ResultsIgnoreStatus(store, e, Completed, cs);
  }
}

=== FILE: sessions.dfy ===
/** Voting sessions of voting/models.py: telemetry records of a voter's
    pass through the voting flow, with the start view of voting/views.py and
    the active-session count of the statistics serializer. */
module VotingSessions {
  import opened Wrappers
  import opened Accounts
  import opened ElectionClock

  datatype SessionStatus = Started | InProgress | SessionCompleted | Abandoned | SessionError

  datatype Session = Session(
    sessionId: string,
    voterId: string,
    electionId: string,
    status: SessionStatus,
    startedAt: int,
    completedAt: Option<int>,
    ipAddress: Option<string>,
    userAgent: string)

  /** `complete_session`: completed, stamped with the completion time;
      nothing else changes. */
  function CompleteSession(s: Session, now: int): (r: Session)
    ensures r.status == SessionCompleted && r.completedAt == Some(now)
    ensures r.(status := s.status, completedAt := s.completedAt) == s
  {
    s.(status := SessionCompleted, completedAt := Some(now))
  }

  /** `abandon_session`: abandoned; the completion time is left as it was. */
  function AbandonSession(s: Session): (r: Session)
    ensures r.status == Abandoned && r.completedAt == s.completedAt
    ensures r.(status := s.status) == s
  {
    s.(status := Abandoned)
  }

  /** A session counts as active while started or in progress. */
  predicate IsActiveSession(s: Session) {
    s.status == Started || s.status == InProgress
  }

  /** `voting_sessions_active` of the statistics serializer. */
  function ActiveSessionCount(sessions: seq<Session>): (n: nat)
    ensures n <= |sessions|
    ensures n == 0 <==> forall i :: 0 <= i < |sessions| ==> !IsActiveSession(sessions[i])
    ensures n == |sessions| <==> forall i :: 0 <= i < |sessions| ==> IsActiveSession(sessions[i])
  {
    if |sessions| == 0 then 0
    else (if IsActiveSession(sessions[0]) then 1 else 0) + ActiveSessionCount(sessions[1..])
  }

  /** Completing or abandoning one active session lowers the active count
      by exactly one. */
  lemma {:induction false} FinishingLowersActiveCount(sessions: seq<Session>, i: nat, now: int, abandon: bool)
    requires i < |sessions| && IsActiveSession(sessions[i])
    ensures var finished := if abandon then AbandonSession(sessions[i]) else CompleteSession(sessions[i], now);
            ActiveSessionCount(sessions[i := finished]) + 1 == ActiveSessionCount(sessions)
  {
    var finished := if abandon then AbandonSession(sessions[i]) else CompleteSession(sessions[i], now);
    if i > 0 {
      FinishingLowersActiveCount(sessions[1..], i - 1, now, abandon);
      assert sessions[i := finished][1..] == sessions[1..][i - 1 := finished];
    } else {
      assert sessions[i := finished][1..] == sessions[1..];
    }
  }

  datatype SessionError = NotAVoter | ElectionIdRequired | ElectionNotFound

  /** `start_voting_session`: only a voter may start one, the election id
      must be given and name an election; the new session is `started`, has
      no completion time and records the client's address and user agent. */
  function StartVotingSession(
    p: Principal, electionId: string, elections: map<string, Election>,
    sessionId: string, ip: Option<string>, userAgent: string, now: int): (r: Result<Session, SessionError>)
    ensures p.voter.None? ==> r == Err(NotAVoter)
    ensures r.Ok? <==> p.voter.Some? && |electionId| > 0 && electionId in elections
    ensures r.Ok? ==> r.value.status == Started && r.value.completedAt.None? && IsActiveSession(r.value)
    ensures r.Ok? ==> r.value.voterId == p.voter.value.voterId && r.value.electionId == electionId
    ensures r.Ok? ==> r.value.startedAt == now
  {
    if p.voter.None? then Err(NotAVoter)
    else if |electionId| == 0 then Err(ElectionIdRequired)
    else if electionId !in elections then Err(ElectionNotFound)
    else Ok(Session(sessionId, p.voter.value.voterId, electionId, Started, now, None, ip, userAgent))
  }
}

=== FILE: sorting.dfy ===
/** A stable sort by an integer key, largest key first. It models Python's
    `list.sort(key=..., reverse=True)` (stable, equal keys keep their input
    order) and, with a negated key, the database's `ORDER BY` on a column. */
module Sorting {

  /** Keys never increase from left to right. */
  ghost predicate Descending<T>(s: seq<T>, key: T -> int) {
    forall i, j :: 0 <= i < j < |s| ==> key(s[i]) >= key(s[j])
  }

  /** Every key in `s` is at most `b`. */
  ghost predicate KeysAtMost<T>(s: seq<T>, key: T -> int, b: int) {
    forall i :: 0 <= i < |s| ==> key(s[i]) <= b
  }

  /** The elements of `s` whose key is `k`, in their order in `s`. Two
      sequences with the same `WithKey` for every `k` list equal-key
      elements in the same relative order. */
  function WithKey<T>(s: seq<T>, key: T -> int, k: int): seq<T> {
    if |s| == 0 then [] else (if key(s[0]) == k then [s[0]] else []) + WithKey(s[1..], key, k)
  }

  /** The sum of the keys of `s`. */
  function KeySum<T>(s: seq<T>, key: T -> int): int {
    if |s| == 0 then 0 else key(s[0]) + KeySum(s[1..], key)
  }

  /** Puts `x` in front of the first element whose key is not larger. */
  function Insert<T>(x: T, s: seq<T>, key: T -> int): (r: seq<T>)
    requires Descending(s, key)
    ensures |r| == |s| + 1
    ensures Descending(r, key)
    ensures forall b :: KeysAtMost(s, key, b) && key(x) <= b ==> KeysAtMost(r, key, b)
    ensures multiset(r) == multiset(s) + multiset{x}
  {
    if |s| == 0 || key(s[0]) <= key(x) then [x] + s
    else
      var rest := Insert(x, s[1..], key);
      assert KeysAtMost(s[1..], key, key(s[0]));
      assert KeysAtMost(rest, key, key(s[0]));
      assert s == [s[0]] + s[1..];
      [s[0]] + rest
  }

  /** Inserting `x` puts it after nothing of its own key: among equal keys
      it comes first, everything else keeps its relative order. */
  lemma {:induction false} InsertWithKey<T>(x: T, s: seq<T>, key: T -> int, k: int)
    requires Descending(s, key)
    ensures WithKey(Insert(x, s, key), key, k) == (if key(x) == k then [x] else []) + WithKey(s, key, k)
  {
    if |s| == 0 || key(s[0]) <= key(x) {
      assert ([x] + s)[1..] == s;
    } else {
      InsertWithKey(x, s[1..], key, k);
      var rest := Insert(x, s[1..], key);
      var r := Insert(x, s, key);
      assert r == [s[0]] + rest;
      assert r[1..] == rest;
      assert WithKey(r, key, k) == (if key(s[0]) == k then [s[0]] else []) + WithKey(rest, key, k);
      assert WithKey(s, key, k) == (if key(s[0]) == k then [s[0]] else []) + WithKey(s[1..], key, k);
      if key(x) == k {
        assert key(s[0]) != k;
      }
    }
  }

  lemma {:induction false} InsertKeySum<T>(x: T, s: seq<T>, key: T -> int)
    requires Descending(s, key)
    ensures KeySum(Insert(x, s, key), key) == key(x) + KeySum(s, key)
  {
    if |s| == 0 || key(s[0]) <= key(x) {
      assert ([x] + s)[1..] == s;
    } else {
      InsertKeySum(x, s[1..], key);
      var r := Insert(x, s, key);
      assert r[1..] == Insert(x, s[1..], key);
    }
  }

  /** Stable descending insertion sort. */
  function Sort<T>(s: seq<T>, key: T -> int): (r: seq<T>)
    ensures |r| == |s|
    ensures Descending(r, key)
    ensures multiset(r) == multiset(s)
  {
    if |s| == 0 then []
    else
      assert s == [s[0]] + s[1..];
      Insert(s[0], Sort(s[1..], key), key)
  }

  /** Stability: for every key, the elements carrying it appear in the
      output in the same order as in the input. */
  lemma {:induction false} SortIsStable<T>(s: seq<T>, key: T -> int, k: int)
    ensures WithKey(Sort(s, key), key, k) == WithKey(s, key, k)
  {
    if |s| > 0 {
      SortIsStable(s[1..], key, k);
      InsertWithKey(s[0], Sort(s[1..], key), key, k);
    }
  }

  /** Sorting does not change the total of the keys. */
  lemma {:induction false} SortKeySum<T>(s: seq<T>, key: T -> int)
    ensures KeySum(Sort(s, key), key) == KeySum(s, key)
  {
    if |s| > 0 {
      SortKeySum(s[1..], key);
      InsertKeySum(s[0], Sort(s[1..], key), key);
    }
  }

  /** Sorting what is already in order changes nothing. */
  lemma {:induction false} SortOfDescending<T>(s: seq<T>, key: T -> int)
    requires Descending(s, key)
    ensures Sort(s, key) == s
  {
    if |s| > 0 {
      SortOfDescending(s[1..], key);
      assert s == [s[0]] + s[1..];
    }
  }
}

=== FILE: status_refresh.dfy ===
/** The batch status refresh of the `check_election_status` management
    command, and the refresh-then-filter of the `active_elections` view. */
module StatusRefresh {
  import opened ElectionClock

  /** How many positions hold a different status in `after` than in
      `before`. */
  function ChangedCount(before: seq<Election>, after: seq<Election>): (n: nat)
    requires |before| == |after|
    ensures n <= |before|
  {
    if |before| == 0 then 0
    else (if before[0].status != after[0].status then 1 else 0) + ChangedCount(before[1..], after[1..])
  }

  /** `ChangedCount` over a prefix one longer. */
  lemma {:induction false} ChangedCountSnoc(before: seq<Election>, after: seq<Election>, i: nat)
    requires |before| == |after| && i < |before|
    ensures ChangedCount(before[..i + 1], after[..i + 1])
            == ChangedCount(before[..i], after[..i]) + (if before[i].status != after[i].status then 1 else 0)
  {
    if i > 0 {
      ChangedCountSnoc(before[1..], after[1..], i - 1);
      assert before[1..][..i] == before[..i + 1][1..];
      assert after[1..][..i] == after[..i + 1][1..];
      assert before[1..][..i - 1] == before[..i][1..];
      assert after[1..][..i - 1] == after[..i][1..];
    }
  }

  /** `Command.handle`: every election passes through
      `check_and_update_status` once, in order, and the count reports how
      many of them changed status. */
  method RefreshAll(elections: seq<Election>, now: int) returns (refreshed: seq<Election>, updated: nat)
    ensures |refreshed| == |elections|
    ensures forall i :: 0 <= i < |elections| ==> refreshed[i] == CheckAndUpdateStatus(elections[i], now)
    ensures updated == ChangedCount(elections, refreshed)
    ensures updated <= |elections|
  {
    refreshed := [];
    updated := 0;
    var i := 0;
    while i < |elections|
      invariant 0 <= i <= |elections|
      invariant |refreshed| == i
      invariant forall j :: 0 <= j < i ==> refreshed[j] == CheckAndUpdateStatus(elections[j], now)
      invariant updated == ChangedCount(elections[..i], refreshed)
    {
      var before := elections[i];
      var after := CheckAndUpdateStatus(before, now);
      ChangedCountSnoc(elections, refreshed + [after] + elections[i + 1..], i);
      assert (refreshed + [after] + elections[i + 1..])[..i] == refreshed;
      assert (refreshed + [after] + elections[i + 1..])[..i + 1] == refreshed + [after];
      refreshed := refreshed + [after];
      if after.status != before.status {
        updated := updated + 1;
      }
      i := i + 1;
    }
    assert elections[..i] == elections;
  }

  /** A second run at the same instant finds nothing to update. */
  method SecondRunUpdatesNothing(elections: seq<Election>, now: int) returns (first: nat, second: nat)
    ensures second == 0
    ensures first <= |elections|
  {
    var once;
    once, first := RefreshAll(elections, now);
    var twice;
    twice, second := RefreshAll(once, now);
    forall i | 0 <= i < |once|
      ensures twice[i] == once[i]
    {
      CheckAndUpdateStatusIsIdempotent(elections[i], now);
    }
    assert twice == once;
    NoChangeCountsZero(once, twice);
  }

  lemma {:induction false} NoChangeCountsZero(before: seq<Election>, after: seq<Election>)
    requires before == after
    ensures ChangedCount(before, after) == 0
  {
    if |before| > 0 {
      NoChangeCountsZero(before[1..], after[1..]);
    }
  }

  /** The elections with status ongoing, in order. */
  function OngoingOnly(elections: seq<Election>): (r: seq<Election>)
    ensures forall e :: e in r <==> e in elections && e.status == Ongoing
  {
    if |elections| == 0 then []
    else (if elections[0].status == Ongoing then [elections[0]] else []) + OngoingOnly(elections[1..])
  }

  /** The filter keeps the elections' order. */
  lemma {:induction false} OngoingOnlyConcat(a: seq<Election>, b: seq<Election>, e: Election)
    ensures OngoingOnly(a + b) == OngoingOnly(a) + OngoingOnly(b)
    ensures OngoingOnly([e]) == if e.status == Ongoing then [e] else []
  {
    if |a| == 0 {
      assert a + b == b;
    } else {
      assert (a + b)[1..] == a[1..] + b;
      OngoingOnlyConcat(a[1..], b, e);
    }
  }

  /** `active_elections`: refresh every election at `now`, then return
      exactly the refreshed ones that are ongoing. */
  method ActiveElections(elections: seq<Election>, now: int) returns (refreshed: seq<Election>, active: seq<Election>)
    ensures |refreshed| == |elections|
    ensures forall i :: 0 <= i < |elections| ==> refreshed[i] == CheckAndUpdateStatus(elections[i], now)
    ensures forall e :: e in active <==> e in refreshed && e.status == Ongoing
    ensures active == OngoingOnly(refreshed)
  {
    var count;
    refreshed, count := RefreshAll(elections, now);
    active := OngoingOnly(refreshed);
  }
}

=== FILE: tally.dfy ===
/** Vote counting of elections/models.py: a candidate's count inside an
    election's window, its count over all time, the name-keyed final results
    of `get_results` and the vote-ordered live results of `get_live_results`. */
module Tally {
  import opened Wrappers
  import opened ElectionClock
  import opened VoteLedger
  import opened Accounts
  import Sorting

  // ---------------------------------------------------------------- counting votes

  /** The rows that `Vote.objects.filter(election=..., candidate=...,
      timestamp__lte=end)` selects. */
  function WindowVoteKeys(store: VoteStore, electionId: string, candidateId: string, end: int): set<(string, string)> {
    set k | k in store && store[k].electionId == electionId && store[k].candidateId == candidateId
                       && store[k].timestamp <= end
  }

  /** The rows of one candidate in any election at any time. */
  function AllVoteKeys(store: VoteStore, candidateId: string): set<(string, string)> {
    set k | k in store && store[k].candidateId == candidateId
  }

  /** The count `get_results` and `get_live_results` use for one candidate:
      votes of this election for the candidate, cast no later than the
      election's end. */
  function WindowCount(store: VoteStore, e: Election, c: Candidate): nat {
    |WindowVoteKeys(store, e.electionId, c.candidateId, e.end)|
  }

  /** `Candidate.get_vote_count`: every vote naming the candidate. */
  function VoteCount(store: VoteStore, c: Candidate): nat {
    |AllVoteKeys(store, c.candidateId)|
  }

  lemma {:induction false} SubsetCardinality<T>(a: set<T>, b: set<T>)
    requires a <= b
    ensures |a| <= |b|
  {
    if a != {} {
      var x :| x in a;
      SubsetCardinality(a - {x}, b - {x});
    }
  }

  /** The windowed count never exceeds the all-time count shown beside a
      candidate. */
  lemma WindowCountAtMostVoteCount(store: VoteStore, e: Election, c: Candidate)
    ensures WindowCount(store, e, c) <= VoteCount(store, c)
  {
    SubsetCardinality(WindowVoteKeys(store, e.electionId, c.candidateId, e.end), AllVoteKeys(store, c.candidateId));
  }

  /** Storing a new vote cast after the election's end leaves every windowed
      count of that election as it was, while the candidate's all-time count
      grows by one. */
  lemma LateVoteIsNotCounted(store: VoteStore, v: Vote, e: Election, c: Candidate)
    requires Insert(store, v).Some?
    requires v.electionId == e.electionId && v.timestamp > e.end
    ensures WindowCount(Insert(store, v).value, e, c) == WindowCount(store, e, c)
    ensures v.candidateId == c.candidateId ==> VoteCount(Insert(store, v).value, c) == VoteCount(store, c) + 1
  {
    var after := Insert(store, v).value;
    assert WindowVoteKeys(after, e.electionId, c.candidateId, e.end) == WindowVoteKeys(store, e.electionId, c.candidateId, e.end);
    if v.candidateId == c.candidateId {
      assert AllVoteKeys(after, c.candidateId) == AllVoteKeys(store, c.candidateId) + {KeyOf(v)};
    }
  }

  /** Storing a new vote cast inside the window raises its candidate's count
      by one and leaves every other candidate's count alone. */
  lemma TimelyVoteIsCounted(store: VoteStore, v: Vote, e: Election, c: Candidate)
    requires Insert(store, v).Some?
    requires v.electionId == e.electionId && v.timestamp <= e.end
    ensures v.candidateId == c.candidateId ==> WindowCount(Insert(store, v).value, e, c) == WindowCount(store, e, c) + 1
    ensures v.candidateId != c.candidateId ==> WindowCount(Insert(store, v).value, e, c) == WindowCount(store, e, c)
  {
    var after := Insert(store, v).value;
    var before := WindowVoteKeys(store, e.electionId, c.candidateId, e.end);
    if v.candidateId == c.candidateId {
      assert WindowVoteKeys(after, e.electionId, c.candidateId, e.end) == before + {KeyOf(v)};
    } else {
      assert WindowVoteKeys(after, e.electionId, c.candidateId, e.end) == before;
    }
  }

  // ---------------------------------------------------------------- name-keyed results

  /** A Python dict from candidate name to count, as its entries in
      insertion order. */
  type Tallies = seq<(string, nat)>

  /** Position of the first entry for `name`, or the length when there is
      none. */
  function Find(d: Tallies, name: string): (i: nat)
    ensures i <= |d|
    ensures i < |d| ==> d[i].0 == name
    ensures forall j :: 0 <= j < i ==> d[j].0 != name
  {
    if |d| == 0 then 0
    else if d[0].0 == name then 0
    else 1 + Find(d[1..], name)
  }

  /** The first entry for `name` is the one the two conditions single out. */
  lemma {:induction false} FindIs(d: Tallies, name: string, i: nat)
    requires i <= |d|
    requires i < |d| ==> d[i].0 == name
    requires forall j :: 0 <= j < i ==> d[j].0 != name
    ensures Find(d, name) == i
  {
    if i > 0 {
      FindIs(d[1..], name, i - 1);
    }
  }

  /** The keys of a dict, or the keys a sequence of assignments names. */
  function Keys(d: seq<(string, nat)>): set<string> {
    set j | 0 <= j < |d| :: d[j].0
  }

  predicate HasKey(d: Tallies, name: string) {
    name in Keys(d)
  }

  /** `d[name]`, or `None` for a missing key. */
  function Lookup(d: Tallies, name: string): (r: Option<nat>)
    ensures r.Some? <==> HasKey(d, name)
  {
    var i := Find(d, name);
    if i < |d| then Some(d[i].1) else None
  }

  /** `d[name] = count`: an existing key keeps its position and takes the
      new value; a new key goes last. */
  function Put(d: Tallies, name: string, count: nat): (r: Tallies)
    ensures |r| == if HasKey(d, name) then |d| else |d| + 1
    ensures Keys(r) == Keys(d) + {name}
    ensures !HasKey(d, name) ==> r == d + [(name, count)]
    ensures forall j :: 0 <= j < |d| ==> r[j].0 == d[j].0
    ensures forall j :: 0 <= j < |d| && d[j].0 != name ==> r[j] == d[j]
    ensures Lookup(r, name) == Some(count)
  {
    var i := Find(d, name);
    var r := if i == |d| then d + [(name, count)] else d[i := (name, count)];
    FindIs(r, name, i);
    assert forall j :: 0 <= j < |d| ==> r[j].0 == d[j].0;
    assert r[i].0 == name;
    assert forall k :: k in Keys(d) ==> k in Keys(r);
    r
  }

  /** Assigning one key leaves every other key's value as it was. */
  lemma PutKeepsOtherKeys(d: Tallies, name: string, count: nat, other: string)
    requires other != name
    ensures Lookup(Put(d, name, count), other) == Lookup(d, other)
  {
    var r := Put(d, name, count);
    var i := Find(d, other);
    if i < |d| {
      FindIs(r, other, i);
    } else {
      FindIs(r, other, |r|);
    }
  }

  ghost predicate KeysDistinct(d: Tallies) {
    forall i, j :: 0 <= i < j < |d| ==> d[i].0 != d[j].0
  }

  /** The dict built by assigning `p`'s pairs in order. */
  function Assign(p: seq<(string, nat)>): (r: Tallies)
    ensures |r| <= |p|
    ensures KeysDistinct(r)
    ensures Keys(r) == Keys(p)
    decreases |p|
  {
    if |p| == 0 then []
    else
      var prefix := p[..|p| - 1];
      var before := Assign(prefix);
      assert forall i :: 0 <= i < |prefix| ==> prefix[i] == p[i];
      Put(before, p[|p| - 1].0, p[|p| - 1].1)
  }

  /** `p[i]` is the last pair for its key. */
  ghost predicate LastOfKey(p: seq<(string, nat)>, i: int) {
    0 <= i < |p| && forall j :: i < j < |p| ==> p[j].0 != p[i].0
  }

  /** A key's final value is the one its last assignment gave it. */
  lemma {:induction false} AssignKeepsLastValue(p: seq<(string, nat)>, i: int)
    requires LastOfKey(p, i)
    ensures Lookup(Assign(p), p[i].0) == Some(p[i].1)
    decreases |p|
  {
    if i < |p| - 1 {
      var prefix := p[..|p| - 1];
      assert LastOfKey(prefix, i);
      AssignKeepsLastValue(prefix, i);
      PutKeepsOtherKeys(Assign(prefix), p[|p| - 1].0, p[|p| - 1].1, p[i].0);
    }
  }

  /** Distinct keys: every assignment adds an entry. */
  lemma {:induction false} DistinctKeysGiveOneEntryEach(p: seq<(string, nat)>)
    requires KeysDistinct(p)
    ensures |Assign(p)| == |p|
    decreases |p|
  {
    if |p| > 0 {
      var prefix := p[..|p| - 1];
      var before := Assign(prefix);
      var last := p[|p| - 1];
      assert forall i :: 0 <= i < |prefix| ==> prefix[i] == p[i];
      assert KeysDistinct(prefix);
      DistinctKeysGiveOneEntryEach(prefix);
    }
  }

  /** One entry per assignment: no key was assigned twice. */
  lemma {:induction false} OneEntryEachMeansDistinctKeys(p: seq<(string, nat)>)
    requires |Assign(p)| == |p|
    ensures KeysDistinct(p)
    decreases |p|
  {
    if |p| > 0 {
      var prefix := p[..|p| - 1];
      var before := Assign(prefix);
      var last := p[|p| - 1];
      assert Assign(p) == Put(before, last.0, last.1);
      assert |before| <= |prefix| == |p| - 1;
      assert !HasKey(before, last.0) && |before| == |prefix|;
      OneEntryEachMeansDistinctKeys(prefix);
      forall i | 0 <= i < |prefix|
        ensures p[i].0 != last.0
      {
        assert prefix[i] == p[i];
        assert HasKey(before, prefix[i].0);
      }
      forall i, j | 0 <= i < j < |p|
        ensures p[i].0 != p[j].0
      {
        if j < |prefix| {
          assert prefix[i] == p[i] && prefix[j] == p[j];
        }
      }
    }
  }

  /** The dict has one entry per assignment exactly when no key is
      assigned twice. */
  lemma AssignLengthIffDistinct(p: seq<(string, nat)>)
    ensures |Assign(p)| == |p| <==> KeysDistinct(p)
  {
    if KeysDistinct(p) {
      DistinctKeysGiveOneEntryEach(p);
    }
    if |Assign(p)| == |p| {
      OneEntryEachMeansDistinctKeys(p);
    }
  }

  /** The values of `d`, added up: `sum(results.values())` for a dict, the
      assigned values one per assignment for a list of assignments. */
  function Total(d: Tallies): nat {
    if |d| == 0 then 0 else Total(d[..|d| - 1]) + d[|d| - 1].1
  }

  lemma {:induction false} TotalUpdate(d: Tallies, i: nat, entry: (string, nat))
    requires i < |d|
    ensures Total(d[i := entry]) + d[i].1 == Total(d) + entry.1
  {
    var u := d[i := entry];
    if i < |d| - 1 {
      assert u[..|u| - 1] == d[..|d| - 1][i := entry];
      TotalUpdate(d[..|d| - 1], i, entry);
    } else {
      assert u[..|u| - 1] == d[..|d| - 1];
    }
  }

  /** Overwriting drops the earlier value from the dict's total, so the
      total is at most the sum of all assignments, and equal to it when no
      key repeats. */
  lemma {:induction false} AssignTotal(p: seq<(string, nat)>)
    ensures Total(Assign(p)) <= Total(p)
    ensures KeysDistinct(p) ==> Total(Assign(p)) == Total(p)
    decreases |p|
  {
    if |p| > 0 {
      var prefix := p[..|p| - 1];
      var before := Assign(prefix);
      var last := p[|p| - 1];
      AssignTotal(prefix);
      var i := Find(before, last.0);
      if i == |before| {
        assert (before + [last])[..|before|] == before;
      } else {
        TotalUpdate(before, i, last);
      }
      if KeysDistinct(p) {
        assert forall k :: 0 <= k < |prefix| ==> prefix[k] == p[k];
        assert KeysDistinct(prefix);
        AssignLengthIffDistinct(p);
        AssignLengthIffDistinct(prefix);
      }
    }
  }

  /** One assignment per candidate of the election, in query order. */
  function Assignments(store: VoteStore, e: Election, cs: seq<Candidate>): (p: seq<(string, nat)>)
    ensures |p| == |cs|
    ensures forall i :: 0 <= i < |cs| ==> p[i] == (cs[i].name, WindowCount(store, e, cs[i]))
  {
    seq(|cs|, i requires 0 <= i < |cs| => (cs[i].name, WindowCount(store, e, cs[i])))
  }

  /** `get_results`: each candidate's windowed count, keyed by name. */
  function Results(store: VoteStore, e: Election, cs: seq<Candidate>): (r: Tallies)
    ensures |r| <= |cs|
    ensures KeysDistinct(r)
    ensures Keys(r) == set i | 0 <= i < |cs| :: cs[i].name
  {
    var p := Assignments(store, e, cs);
    var r := Assign(p);
    assert forall i :: 0 <= i < |cs| ==> p[i].0 == cs[i].name;
    r
  }

  /** The candidate `cs[i]` is the last one of its name in `cs`. */
  ghost predicate LastOfName(cs: seq<Candidate>, i: int) {
    0 <= i < |cs| && forall j :: i < j < |cs| ==> cs[j].name != cs[i].name
  }

  /** A name's value in the final results is the count of the last
      candidate carrying that name: earlier same-named candidates are
      overwritten. */
  lemma ResultIsLastNamedCount(store: VoteStore, e: Election, cs: seq<Candidate>, i: int)
    requires LastOfName(cs, i)
    ensures Lookup(Results(store, e, cs), cs[i].name) == Some(WindowCount(store, e, cs[i]))
  {
    AssignKeepsLastValue(Assignments(store, e, cs), i);
  }

  /** No two candidates share a name. */
  ghost predicate NamesDistinct(cs: seq<Candidate>) {
    forall i, j :: 0 <= i < j < |cs| ==> cs[i].name != cs[j].name
  }

  /** The final results have one entry per candidate exactly when no two
      candidates share a name. */
  lemma OneEntryPerCandidateIffNamesDistinct(store: VoteStore, e: Election, cs: seq<Candidate>)
    ensures |Results(store, e, cs)| == |cs| <==> NamesDistinct(cs)
  {
    var p := Assignments(store, e, cs);
    AssignLengthIffDistinct(p);
    assert KeysDistinct(p) <==> NamesDistinct(cs);
  }

  // ---------------------------------------------------------------- live results

  datatype LiveEntry = LiveEntry(candidateId: string, name: string, party: string, position: string, voteCount: nat)

  function VotesOf(r: LiveEntry): int {
    r.voteCount
  }

  function Row(store: VoteStore, e: Election, c: Candidate): LiveEntry {
    LiveEntry(c.candidateId, c.name, c.party, c.position, WindowCount(store, e, c))
  }

  /** One row per candidate, in query order, before sorting. */
  function Rows(store: VoteStore, e: Election, cs: seq<Candidate>): (r: seq<LiveEntry>)
    ensures |r| == |cs|
    ensures forall i :: 0 <= i < |cs| ==> r[i] == Row(store, e, cs[i])
  {
    seq(|cs|, i requires 0 <= i < |cs| => Row(store, e, cs[i]))
  }

  /** `get_live_results`: the rows sorted by vote count, most votes first,
      with tied candidates kept in query order. */
  function LiveResults(store: VoteStore, e: Election, cs: seq<Candidate>): (r: seq<LiveEntry>)
    ensures |r| == |cs|
    ensures forall i, j :: 0 <= i < j < |r| ==> r[i].voteCount >= r[j].voteCount
    ensures multiset(r) == multiset(Rows(store, e, cs))
  {
    var r := Sorting.Sort(Rows(store, e, cs), VotesOf);
    assert forall i, j :: 0 <= i < j < |r| ==> VotesOf(r[i]) >= VotesOf(r[j]);
    r
  }

  /** Tied candidates keep the order the query gave them. */
  lemma LiveResultsKeepTiesInOrder(store: VoteStore, e: Election, cs: seq<Candidate>, n: int)
    ensures Sorting.WithKey(LiveResults(store, e, cs), VotesOf, n) == Sorting.WithKey(Rows(store, e, cs), VotesOf, n)
  {
    Sorting.SortIsStable(Rows(store, e, cs), VotesOf, n);
  }

  lemma {:induction false} KeySumSnoc(s: seq<LiveEntry>, x: LiveEntry)
    ensures Sorting.KeySum(s + [x], VotesOf) == Sorting.KeySum(s, VotesOf) + x.voteCount
  {
    if |s| > 0 {
      KeySumSnoc(s[1..], x);
      assert (s + [x])[1..] == s[1..] + [x];
    }
  }

  /** The unsorted rows' counts add up to the sum of the assignments. */
  lemma {:induction false} RowsTotal(store: VoteStore, e: Election, cs: seq<Candidate>)
    ensures Sorting.KeySum(Rows(store, e, cs), VotesOf) == Total(Assignments(store, e, cs))
    decreases |cs|
  {
    if |cs| > 0 {
      var prefix := cs[..|cs| - 1];
      var rows := Rows(store, e, prefix);
      var row := Row(store, e, cs[|cs| - 1]);
      RowsTotal(store, e, prefix);
      KeySumSnoc(rows, row);
      assert Rows(store, e, cs) == rows + [row];
      var p := Assignments(store, e, cs);
      assert p[..|p| - 1] == Assignments(store, e, prefix);
      assert Total(p) == Total(p[..|p| - 1]) + row.voteCount;
    }
  }

  /** The total of the live results: every candidate's windowed count,
      added up. */
  lemma LiveTotalIsSumOfCounts(store: VoteStore, e: Election, cs: seq<Candidate>)
    ensures Sorting.KeySum(LiveResults(store, e, cs), VotesOf) == Total(Assignments(store, e, cs))
  {
    Sorting.SortKeySum(Rows(store, e, cs), VotesOf);
    RowsTotal(store, e, cs);
  }

  /** The final results' total never exceeds the live total, and equals it
      when no two candidates share a name: same-named candidates collapse
      into one dict entry and only the last one's votes are added up. */
  lemma FinalTotalAtMostLiveTotal(store: VoteStore, e: Election, cs: seq<Candidate>)
    ensures Total(Results(store, e, cs)) <= Sorting.KeySum(LiveResults(store, e, cs), VotesOf)
    ensures NamesDistinct(cs) ==> Total(Results(store, e, cs)) == Sorting.KeySum(LiveResults(store, e, cs), VotesOf)
  {
    var p := Assignments(store, e, cs);
    LiveTotalIsSumOfCounts(store, e, cs);
    AssignTotal(p);
    assert NamesDistinct(cs) ==> KeysDistinct(p);
  }

  // ---------------------------------------------------------------- turnout

  /** `Voter.objects.filter(can_vote=True).count()`: the turnout
      denominator counts the can-vote flag only, verified or not. */
  function EligibleCount(voters: seq<Voter>): (n: nat)
    ensures n <= |voters|
    ensures n == |voters| <==> forall i :: 0 <= i < |voters| ==> voters[i].canVote
    ensures n == 0 <==> forall i :: 0 <= i < |voters| ==> !voters[i].canVote
  {
    if |voters| == 0 then 0
    else (if voters[0].canVote then 1 else 0) + EligibleCount(voters[1..])
  }

  /** `total / voters * 100`, or 0 when there is no voter; the rounding to
      two decimals is not modelled. */
  function Turnout(total: nat, eligible: nat): (r: real)
    ensures r >= 0.0
    ensures eligible == 0 ==> r == 0.0
    ensures eligible > 0 ==> r * (eligible as real) == (total as real) * 100.0
  {
    if eligible > 0 then (total as real) * 100.0 / (eligible as real) else 0.0
  }

  /** Turnout stays within 100 percent while no more votes are counted than
      there are eligible voters, and reaches it exactly when every eligible
      voter's vote is counted. */
  lemma TurnoutBounds(total: nat, eligible: nat)
    requires eligible > 0
    ensures total <= eligible ==> Turnout(total, eligible) <= 100.0
    ensures Turnout(total, eligible) == 100.0 <==> total == eligible
    ensures total > eligible ==> Turnout(total, eligible) > 100.0
  {
    var r := Turnout(total, eligible);
    var n := eligible as real;
    assert r * n == (total as real) * 100.0;
    if total <= eligible {
      assert r * n <= 100.0 * n;
    }
  }
}

=== FILE: text.dfy ===
/** ASCII character classes and case mapping, the subset of Python's
    `str.isalnum`, `str.upper` and `str.lower` the model relies on. */
module Text {

  predicate IsDigit(c: char) { '0' <= c <= '9' }

  predicate IsUpperLetter(c: char) { 'A' <= c <= 'Z' }

  predicate IsLowerLetter(c: char) { 'a' <= c <= 'z' }

  predicate IsAlnum(c: char) { IsDigit(c) || IsUpperLetter(c) || IsLowerLetter(c) }

  /** Every character of `s` is an ASCII letter or digit. */
  predicate AllAlnum(s: string) {
    forall i :: 0 <= i < |s| ==> IsAlnum(s[i])
  }

  function UpperChar(c: char): char {
    if IsLowerLetter(c) then (c as int - 32) as char else c
  }

  function LowerChar(c: char): char {
    if IsUpperLetter(c) then (c as int + 32) as char else c
  }

  /** `str.upper()` restricted to ASCII. */
  function Upper(s: string): (r: string)
    ensures |r| == |s|
    ensures forall i :: 0 <= i < |s| ==> r[i] == UpperChar(s[i])
  {
    if |s| == 0 then [] else [UpperChar(s[0])] + Upper(s[1..])
  }

  /** `str.lower()` restricted to ASCII. */
  function Lower(s: string): (r: string)
    ensures |r| == |s|
    ensures forall i :: 0 <= i < |s| ==> r[i] == LowerChar(s[i])
  {
    if |s| == 0 then [] else [LowerChar(s[0])] + Lower(s[1..])
  }

  /** Upper-casing keeps letters and digits what they are and leaves no
      lower-case letter behind. */
  lemma UpperKeepsClasses(s: string)
    ensures AllAlnum(s) ==> AllAlnum(Upper(s))
    ensures forall i :: 0 <= i < |Upper(s)| ==> !IsLowerLetter(Upper(s)[i])
  {
  }

  /** Upper-casing twice is upper-casing once. */
  lemma UpperIdempotent(s: string)
    ensures Upper(Upper(s)) == Upper(s)
  {
  }

  /** Lower-casing forgets any earlier upper-casing, so a comparison after
      `.lower()` is case-insensitive. */
  lemma LowerOfUpper(s: string)
    ensures Lower(Upper(s)) == Lower(s)
  {
  }

  /** Lower-casing commutes with taking a slice. */
  lemma LowerSlice(s: string, i: nat, j: nat)
    requires i <= j <= |s|
    ensures Lower(s[i..j]) == Lower(s)[i..j]
  {
  }
}

=== FILE: wrappers.dfy ===
/** Failure-carrying wrappers shared by every module of the model. */
module Wrappers {

  /** An optional value: Python's `None` or a present value. */
  datatype Option<+T> = None | Some(value: T) {
    function GetOr(default: T): T {
      match this
      case Some(v) => v
      case None => default
    }
  }

  /** The outcome of a fallible operation: a value, or the error that a
      Django view or serializer would have reported instead. */
  datatype Result<+T, +E> = Ok(value: T) | Err(error: E) {
    predicate IsFailure() {
      Err?
    }

    function PropagateFailure<U>(): Result<U, E>
      requires Err?
    {
      Err(error)
    }

    function Extract(): T
      requires Ok?
    {
      value
    }
  }
}
